=== FILE: README.md ===
# Xevle.IO core, modelled in Dafny

This project models three parts of the Xevle.IO library.

- **`BufferedBinaryReader`**: a forward-only little-endian decoder over a byte stream. It keeps one fixed-capacity buffer with two cursors: the next unread byte (`pos`) and the end of the last fill (`cap`). It refills when a byte read or the buffered head of a decode uses up the buffer; a decode whose tail uses up the refilled buffer does not refill again, and the reader then stalls (reports EOF while the stream still holds bytes). The position a caller sees is derived, not stored: the stream's cursor minus the bytes still buffered. `Valid`, `Logical` and `Unread` state this invariant.
- **`Paths`**: the string predicates and transforms of the path helper. These are separator and UNC tests, absolute and root tests per platform, illegal-character filtering, and splitting at the last separator.
- **`PersistenceKeyValueStorage`**: the in-memory semantics of the key-value store. Each key maps to the list of `(timestamp, value)` entries added under it.

The reader is an immutable state value. Every operation takes a reader state and returns either `Success(Step(value, next))` or `Failure(error)`, where the error is the exception the code throws. The raw-read loops (`Read`, `ReadBytes`, and the copy loop `CopyOut`) are methods over value parameters, with loop invariants. The stream is file-like: its whole content `data` is known, and a read of `n` bytes delivers `min(n, remaining)` bytes.

The files:

- `results.dfy`: `Option` and `Result`.
- `little_endian.dfy`: the `byte` type, little-endian assembly and two's complement. This replaces the code's unsafe reinterpreting casts and assumes a little-endian host.
- `byte_source.dfy`: the stream.
- `buffered_binary_reader.dfy`: the reader.
- `reader_properties.dfy`: properties that span several reader operations, including a trace of the ten-byte sample 01 00 00 00 02 00 FF 00 00 00 read through a 3-byte buffer by ReadInt32, ReadInt16, ReadByte and ReadInt24.
- `reader_corrections.dfy`: the reader findings.
- `paths.dfy`: the path helper.
- `persistence_key_value_storage.dfy`: the store.

In four places the reader's design and its code disagree: a decode whose tail empties the refilled buffer stalls the reader, a decode whose tail exceeds the capacity overruns the block copy, `ReadInt24` does not sign-extend from bit 23, and `Read` ignores its `index` argument. The path helper's Unix root test disagrees with its purpose in a fifth place. The model follows the code, and the Findings section gives the corrected member for each.

## Model

| member | source | states |
|---|---|---|
| BufferedBinaryReader.FillBuffer | Streams/BufferedBinaryReader.cs:94-100 | One read of up to the capacity. `pos` restarts at 0 and `cap` is the count delivered, so the new buffer is the next bytes of the same stream. An exhausted buffer keeps the caller-visible position. |
| BufferedBinaryReader.New | Streams/BufferedBinaryReader.cs:39-51 | Throws ArgumentNull for a null stream, Argument for an unreadable one and ArgumentOutOfRange for a capacity ≤ 0, in that order. Otherwise it fills once. The unread bytes are then exactly the stream from its cursor, and the buffer holds min(capacity, remaining) of them. |
| BufferedBinaryReader.NewDefault | Streams/BufferedBinaryReader.cs:30-32 | The same checks as `New`, with capacity 0x10000. |
| BufferedBinaryReader.StreamPosition | Streams/BufferedBinaryReader.cs:66-69 | The stream bytes between the reported position and the stream cursor are exactly the unconsumed buffered bytes. It throws NullReference once the stream is forgotten. |
| BufferedBinaryReader.EOF | Streams/BufferedBinaryReader.cs:529-532 | A disposed reader is at EOF. Not at EOF implies unread bytes exist. On a reader that has not stalled, EOF holds iff no unread byte remains; on a stalled reader EOF is true although unread bytes remain. |
| BufferedBinaryReader.NextByte | Streams/BufferedBinaryReader.cs:153-163 | Throws ObjectDisposed, then EndOfStream on an empty buffer. Otherwise it yields the first unread byte, advances by one and refills when the buffer is exhausted, so the reader never stalls. |
| BufferedBinaryReader.ReadBoolean | Streams/BufferedBinaryReader.cs:137-147 | True iff the next unread byte is non-zero. The failure order and one-byte advance are the same as ReadByte's. |
| BufferedBinaryReader.ReadByte | Streams/BufferedBinaryReader.cs:153-163 | The value below 256 whose one-byte encoding is the next unread byte. |
| BufferedBinaryReader.ReadSByte | Streams/BufferedBinaryReader.cs:306-316 | The two's-complement value in [-128, 128) whose encoding is the next unread byte. |
| BufferedBinaryReader.TakeBuffered | Streams/BufferedBinaryReader.cs:227-231 | Consuming `len` buffered bytes yields exactly the next `len` unread bytes and advances by `len`. A refill happens exactly when the buffer is exhausted. |
| BufferedBinaryReader.TakeTail | Streams/BufferedBinaryReader.cs:232 | The tail copied from the refilled buffer is the next unread bytes. It leaves the buffer empty over a non-exhausted stream exactly when it took the whole refill and the stream holds more. |
| BufferedBinaryReader.ReadFixed | Streams/BufferedBinaryReader.cs:220-236 | The shared decode shape. Throws ObjectDisposed, then EndOfStream on an empty buffer. Otherwise it yields exactly the next `width` unread bytes, across at most one refill, and advances by exactly `width`. The reader is left stalled exactly when the decode crosses the refill, the tail equals the capacity, and the stream holds more than the capacity. |
| BufferedBinaryReader.Unsigned | Streams/BufferedBinaryReader.cs:343-358 | The decoded value is the unique unsigned value whose little-endian encoding is the next `width` bytes. |
| BufferedBinaryReader.Signed | Streams/BufferedBinaryReader.cs:220-236 | The decoded value is the unique in-range two's-complement value whose encoding is the next `width` bytes. |
| BufferedBinaryReader.ReadInt16 | Streams/BufferedBinaryReader.cs:220-236 | A two's-complement value in [-2^15, 2^15) encoded by the next 2 bytes. |
| BufferedBinaryReader.ReadUInt16 | Streams/BufferedBinaryReader.cs:343-358 | The unsigned value below 2^16 encoded by the next 2 bytes. |
| BufferedBinaryReader.ReadInt24 | Streams/BufferedBinaryReader.cs:264-279 | A non-negative value below 2^24 whose 3-byte unsigned encoding is the next 3 bytes. There is no sign extension. |
| BufferedBinaryReader.ReadUInt24 | Streams/BufferedBinaryReader.cs:364-379 | The unsigned value below 2^24 encoded by the next 3 bytes. |
| BufferedBinaryReader.ReadInt32 | Streams/BufferedBinaryReader.cs:242-258 | A two's-complement value in [-2^31, 2^31) encoded by the next 4 bytes. |
| BufferedBinaryReader.ReadUInt32 | Streams/BufferedBinaryReader.cs:385-401 | The unsigned value below 2^32 encoded by the next 4 bytes. |
| BufferedBinaryReader.ReadInt64 | Streams/BufferedBinaryReader.cs:285-300 | A two's-complement value in [-2^63, 2^63) encoded by the next 8 bytes. |
| BufferedBinaryReader.ReadUInt64 | Streams/BufferedBinaryReader.cs:407-425 | The unsigned value below 2^64 encoded by the next 8 bytes. |
| BufferedBinaryReader.SingleFields | Streams/BufferedBinaryReader.cs:336 | A 32-bit pattern splits into a sign, an exponent below 2^8 and a fraction below 2^23. Together they pack back into the pattern. |
| BufferedBinaryReader.DoubleFields | Streams/BufferedBinaryReader.cs:213 | A 64-bit pattern splits into a sign, an exponent below 2^11 and a fraction below 2^52. Together they pack back into the pattern. |
| BufferedBinaryReader.ReadSingle | Streams/BufferedBinaryReader.cs:322-337 | The IEEE-754 single-precision fields whose packed pattern is encoded by the next 4 bytes. It consumes exactly 4 bytes. |
| BufferedBinaryReader.ReadDouble | Streams/BufferedBinaryReader.cs:199-214 | The IEEE-754 double-precision fields whose packed pattern is encoded by the next 8 bytes. It consumes exactly 8 bytes. |
| BufferedBinaryReader.Seek | Streams/BufferedBinaryReader.cs:454-484 | Throws ObjectDisposed, then NotSupported on a non-seekable stream. Otherwise it returns the position from before the seek. The unread bytes become the stream from base + offset, where the base is 0, the current position or the length. The buffer is refilled. |
| BufferedBinaryReader.CanSeek | Streams/BufferedBinaryReader.cs:444-447 | True exactly when a seek to the current position would succeed. |
| BufferedBinaryReader.Discard | Streams/BufferedBinaryReader.cs:497-513 | The discard loop succeeds iff the stream holds the remaining bytes, and then it has consumed exactly them. Otherwise it throws EndOfStream. |
| BufferedBinaryReader.Skip | Streams/BufferedBinaryReader.cs:490-523 | Throws ObjectDisposed, then EndOfStream on an empty buffer, even for offset 0. Otherwise it succeeds iff the target is within the stream. On success it advances the position by exactly `offset` and leaves the reader not stalled. |
| BufferedBinaryReader.Dispose | Streams/BufferedBinaryReader.cs:83-89 | Closes the stream iff disposing and a stream is held. It forgets the stream and the buffer, and the reader reports EOF. |
| BufferedBinaryReader.ReleaseInnerStream | Streams/BufferedBinaryReader.cs:538-550 | Throws ObjectDisposed, then NotSupported. Otherwise it returns the stream unclosed, with its cursor at the reader's position. The stream's remaining bytes are exactly the reader's unread bytes, and the reader is left disposed. |
| BufferedBinaryReader.CopyOut | Streams/BufferedBinaryReader.cs:116-130 | Copies min(count, unread) bytes, or none when the buffer is empty on entry. They are copied in order into the destination from the given offset, and the rest of the destination is untouched. The position advances by the count. |
| BufferedBinaryReader.Read | Streams/BufferedBinaryReader.cs:108-131 | The argument checks, in order: null, negative index or count, too-small destination, then disposed. After them it transfers as CopyOut does, but always from destination position 0, whatever `index` is. |
| BufferedBinaryReader.ReadBytes | Streams/BufferedBinaryReader.cs:170-193 | Throws ArgumentOutOfRange for a negative count, then ObjectDisposed. Otherwise it returns exactly the next min(count, unread) bytes, or none when the buffer is empty, and advances by that many. |
| LittleEndian.ToBytesFromBytes | Streams/BufferedBinaryReader.cs:256 | Encoding the value of any byte string gives back the byte string. |
| LittleEndian.FromBytesToBytes | Streams/BufferedBinaryReader.cs:256 | Decoding the encoding of any in-range value gives back the value. |
| LittleEndian.ToSignedRoundTrip | Streams/BufferedBinaryReader.cs:235 | Reading a pattern as two's complement lands in [-2^(8w-1), 2^(8w-1)) and maps back to the pattern. |
| LittleEndian.FromSignedRoundTrip | Streams/BufferedBinaryReader.cs:235 | Writing an in-range signed value as a pattern and reading it back gives the value. |
| ReaderProperties.DisposeIsFinal | Streams/BufferedBinaryReader.cs:83-89 | After disposal, every checked operation throws ObjectDisposed, StreamPosition throws NullReference, CanSeek is false and EOF is true. |
| ReaderProperties.DisposeClosesOnce | Streams/BufferedBinaryReader.cs:85 | A second dispose finds no stream and closes nothing. |
| ReaderProperties.SkipMatchesSeek | Streams/BufferedBinaryReader.cs:515 | On a seekable stream, skipping and seeking relative to the current position leave the same unread bytes, and neither stalls. |
| ReaderProperties.SkipWithoutSeek | Streams/BufferedBinaryReader.cs:497-513 | On a non-seekable stream, skipping leaves exactly the unread bytes after `offset`. Skipping past the end throws EndOfStream. |
| ReaderProperties.Fresh | Streams/BufferedBinaryReader.cs:39-51 | A newly built reader is valid and not stalled, and its unread bytes are the stream from its cursor. |
| BufferedBinaryReader.WithinCapacityFits | Streams/BufferedBinaryReader.cs:225-235 | In any reader state, a decode no wider than the capacity, whose bytes the stream still holds, fits the single refill. |
| ReaderProperties.FreshDecodeFits | Streams/BufferedBinaryReader.cs:249-254 | On a new reader, the one-refill decode fits whenever the capacity is at least half the width. |
| ReaderProperties.ToBytesInjective | Streams/BufferedBinaryReader.cs:256 | Two values with the same encoding are equal. |
| ReaderProperties.UnsignedRoundTrip | Streams/BufferedBinaryReader.cs:385-401 | An unsigned value encoded at the head of the stream decodes to itself and advances by the width. This holds on a new reader for every capacity of at least half the width. |
| ReaderProperties.SignedRoundTrip | Streams/BufferedBinaryReader.cs:242-258 | A signed value encoded at the head of the stream decodes to itself, under the same capacity bound. |
| ReaderProperties.Int24MatchesUInt24 | Streams/BufferedBinaryReader.cs:278 | ReadInt24 and ReadUInt24 agree on value and next state for every input. |
| ReaderProperties.ScenarioFill | Streams/BufferedBinaryReader.cs:39-51 | Over the ten-byte sample 01 00 00 00 02 00 FF 00 00 00 with capacity 3, the reader after construction: the buffer holds 01 00 00 and the stream cursor is at 3. |
| ReaderProperties.ScenarioInt32 | Streams/BufferedBinaryReader.cs:242-258 | ReadInt32 across the first refill returns 1 and leaves the reader at buffer offset 1 of 00 02 00. |
| ReaderProperties.ScenarioInt16 | Streams/BufferedBinaryReader.cs:220-236 | ReadInt16 then returns 2. |
| ReaderProperties.ScenarioByte | Streams/BufferedBinaryReader.cs:153-163 | ReadByte then returns 0xFF. |
| ReaderProperties.ScenarioInt24 | Streams/BufferedBinaryReader.cs:264-279 | ReadInt24 then returns 0, and the reader is at EOF. |
| ReaderCorrections.Gather | Streams/BufferedBinaryReader.cs:225-235 | Collecting `need` bytes through as many refills as it takes succeeds iff that many bytes remain. It yields exactly them, and otherwise throws EndOfStream. |
| ReaderCorrections.ReadExact | Streams/BufferedBinaryReader.cs:220-236 | The corrected decode: the same failure order, success iff `width` bytes remain, exactly those bytes, and it never leaves the reader stalled. |
| ReaderCorrections.ExactRoundTrip | Streams/BufferedBinaryReader.cs:220-236 | With the corrected decode, an encoded value decodes to itself for every capacity ≥ 1. |
| ReaderCorrections.BoundaryTailFixed | Streams/BufferedBinaryReader.cs:225-235 | The code's two-byte decode on the reader a capacity of 1 builds over 01 02 03 returns 01 02 and leaves `pos` at `cap` with 03 still unread, so EOF is true and the next byte read throws EndOfStream. |
| ReaderCorrections.ExactLeavesNext | Streams/BufferedBinaryReader.cs:153-163 | After the corrected decode of a value that the stream outlasts, the next byte read succeeds and is the byte right after the value. |
| ReaderCorrections.StallCondition | Streams/BufferedBinaryReader.cs:231-232 | For every valid reader with a non-empty buffer and every width that fits: the code's decode stalls exactly when it crosses the refill with a tail equal to the capacity and more bytes in the stream. ReadExact returns the same bytes and never stalls. |
| ReaderCorrections.BoundaryTailStalls | Streams/BufferedBinaryReader.cs:231-232 | With capacity 1 over 01 02 03, the code's ReadInt16 leaves EOF true while 03 is unread, and the next byte read throws. ReadExact reads 03. |
| ReaderCorrections.SmallCapacityFails | Streams/BufferedBinaryReader.cs:232 | On a new reader with capacity below half the width, the one-refill decode cannot fit, while ReadExact succeeds. |
| ReaderCorrections.TailBeyondCapacityFails | Streams/BufferedBinaryReader.cs:232 | In any state, when the tail still to take, the width minus the buffered bytes, exceeds the capacity, the one-refill decode cannot fit, while ReadExact succeeds iff the stream holds the value. |
| ReaderCorrections.ReadInt24Signed | Streams/BufferedBinaryReader.cs:278 | The corrected ReadInt24: the two's-complement 24-bit value of the next 3 bytes. |
| ReaderCorrections.AllOnes | Streams/BufferedBinaryReader.cs:278 | FF FF FF encodes 0xFFFFFF unsigned and -1 signed. |
| ReaderCorrections.Int24NotSignExtended | Streams/BufferedBinaryReader.cs:278 | On FF FF FF the code's ReadInt24 returns 0xFFFFFF, and the corrected one returns -1. |
| ReaderCorrections.ReadAt | Streams/BufferedBinaryReader.cs:108-131 | The corrected Read: the same checks, with the bytes written from `index`. |
| ReaderCorrections.WrittenOne | Streams/BufferedBinaryReader.cs:122 | Writing one byte at a position is an update of that one position. |
| ReaderCorrections.IndexSample | Streams/BufferedBinaryReader.cs:108-131 | The reader of ReadIndexIgnored and ReadIndexHonoured: valid, not at EOF, with one unread byte AA. |
| ReaderCorrections.ReadIndexIgnored | Streams/BufferedBinaryReader.cs:116-122 | The code's Read of one byte AA at index 2 writes AA 00 00 00. |
| ReaderCorrections.ReadIndexHonoured | Streams/BufferedBinaryReader.cs:108-131 | ReadAt with the same arguments writes 00 00 AA 00. |
| Paths.ToLowerChar | FileSystem/Paths.cs:166 | ASCII lower-casing: 'A'–'Z' map to the letter 32 code points higher, every other character is unchanged, and the result is in a–z exactly for letters. |
| Paths.ToLower | FileSystem/Paths.cs:166 | Lower-cases character by character and keeps the length. |
| Paths.TrimEnd | FileSystem/Paths.cs:81 | The result is the input without its longest suffix drawn from the trim set: a prefix, everything after it in the set, and its own last character not in the set. |
| Paths.TrimmedUnique | FileSystem/Paths.cs:81 | Any string with those three properties is the result of TrimEnd. |
| Paths.SeparatorSurvivesTrim | FileSystem/Paths.cs:77-81 | After trimming the trailing separators, a separator remains iff some separator is followed, later, by a character that is not one. |
| Paths.IsPath | FileSystem/Paths.cs:75-85 | True iff some '/' or '\\' is followed, later, by a character that is neither. |
| Paths.IsNetworkPath | FileSystem/Paths.cs:147-157 | True iff the path is at least 3 characters long and starts with two backslashes. |
| Paths.IsAbsolute | FileSystem/Paths.cs:92-124 | Windows: a network path, or a letter, ':' and a separator. Unix and Mac: a leading '/'. Other platforms throw NotImplemented. |
| Paths.IndexOfIllegal | FileSystem/Paths.cs:199 | The first illegal character's index, or none iff no character is illegal. |
| Paths.IsFilenameValid | FileSystem/Paths.cs:197-201 | True iff no character is one of `<>:"|`, U+0000–U+001F or U+FFFD. |
| Paths.IsLocalPath | FileSystem/Paths.cs:131-140 | Network paths are false and absolute paths true. Otherwise it is false when empty and true iff the name is valid. It throws only on an unsupported platform and a non-network path. |
| Paths.WithoutIllegalFixed | FileSystem/Paths.cs:197-201 | Filtering leaves a string unchanged iff it is a valid file name. |
| Paths.WithoutIllegalValid | FileSystem/Paths.cs:396-401 | The filtered string is a valid file name. |
| Paths.WithoutIllegalIdempotent | FileSystem/Paths.cs:396-401 | Filtering twice equals filtering once. |
| Paths.RemoveIllegalKeepsFilter | FileSystem/Paths.cs:399 | Removing one illegal character does not change the filtered string. |
| Paths.GetValidFilename | FileSystem/Paths.cs:396-401 | The remove-first-illegal loop ends with exactly the input's legal characters in order, which is a valid file name. |
| Paths.IsRoot | FileSystem/Paths.cs:164-190 | Throws NotImplemented exactly on an unsupported platform. Its values are stated by WindowsRootIff and UnixRootAsWritten. |
| Paths.WindowsRootIff | FileSystem/Paths.cs:170-176 | On Windows, a root is a letter and ':' followed only by backslashes. |
| Paths.UnixRootAsWritten | FileSystem/Paths.cs:177-182 | On Unix and MacOSX, a path counts as a root iff it starts with '/' and contains some other character. |
| Paths.UnixRootCounterexample | FileSystem/Paths.cs:177-182 | "/" is not a root and "/usr" is. |
| Paths.IsRootFixed | FileSystem/Paths.cs:164-190 | The corrected test. On Unix and Mac a root is a non-empty run of '/'. Windows is unchanged. |
| Paths.UnixRootFixed | FileSystem/Paths.cs:177-182 | With the correction, "/" is a root and "/usr" is not. |
| Paths.LastSeparator | FileSystem/Paths.cs:220-227 | The index of a '/' or '\\' with none after it, or none iff the string has no separator. |
| Paths.GetPathWithPathDelimiter | FileSystem/Paths.cs:306-309 | The input with its trailing delimiters replaced by exactly one delimiter. |
| Paths.GetPathWithPathDelimiterIdempotent | FileSystem/Paths.cs:306-309 | Applying it twice equals applying it once. |
| Paths.GetPath | FileSystem/Paths.cs:212-234 | Throws IndexOutOfRange exactly on the empty string. |
| Paths.GetFilename | FileSystem/Paths.cs:327-348 | Throws IndexOutOfRange exactly on the empty string. |
| Paths.SplitJoins | FileSystem/Paths.cs:212-234 | For a name not ending in the delimiter, three parts give the name back: the directory part without a trailing delimiter, the last separator and the file part. The file part holds no separator. Without any separator, the parts are "" and the name. |
| Paths.SplitAtDelimiterEnd | FileSystem/Paths.cs:216 | A name ending in the delimiter is returned whole by GetPath and by GetFilename. |
| Paths.GetPathDelimiterAtEnd | FileSystem/Paths.cs:232-233 | When the name contains a separator and does not end in the delimiter, GetPath with a delimiter requested is the directory part plus the platform delimiter. |
| Paths.GetPathWithoutSeparator | FileSystem/Paths.cs:229 | On a non-empty name with no separator that does not end in the delimiter, GetPath returns the empty string whether or not a delimiter is requested. |
| PersistenceKeyValueStorage.Add | Data/PersistenceKeyValueStorage.cs:52-73 | Returns true. The keys afterwards are the old keys plus `key`. With `uniqueKey`, the list is just the new entry. Otherwise the new entry is appended to the old list, or to an empty one for a new key. Every other key's list is unchanged. |
| PersistenceKeyValueStorage.NewestAtUnique | Data/PersistenceKeyValueStorage.cs:101 | At most one position is newest: greatest ticks, with every earlier entry strictly older. |
| PersistenceKeyValueStorage.NewestIndex | Data/PersistenceKeyValueStorage.cs:91-105 | The scan finds none iff the list is empty. Otherwise it finds the position with the greatest ticks, the earliest among ties. |
| PersistenceKeyValueStorage.GetValues | Data/PersistenceKeyValueStorage.cs:115-118 | The list stored under the key. It is empty iff GetValue finds nothing, and otherwise holds GetValue's entry. |
| PersistenceKeyValueStorage.GetValue | Data/PersistenceKeyValueStorage.cs:87-108 | None iff the list is empty. Otherwise it returns the entry at that newest position. |
| PersistenceKeyValueStorage.GetKeys | Data/PersistenceKeyValueStorage.cs:75-80 | Every key exactly once, and nothing else. |
| PersistenceKeyValueStorage.AddUniqueThenGet | Data/PersistenceKeyValueStorage.cs:63-68 | After a unique Add, GetValues is the single new entry and GetValue returns it. |
| PersistenceKeyValueStorage.AddNewerThenGet | Data/PersistenceKeyValueStorage.cs:93-105 | Appending an entry strictly newer than every earlier one makes it what GetValue returns. |
| PersistenceKeyValueStorage.AddOlderKeepsNewest | Data/PersistenceKeyValueStorage.cs:101-104 | Appending an entry no newer than some earlier one leaves GetValue unchanged, because ties go to the earlier entry. |

## Left out

- The file-name constructor and `StreamLength` (Streams/BufferedBinaryReader.cs:22, 57-60): both are file-system I/O.
- `Close` and `IDisposable.Dispose` (Streams/BufferedBinaryReader.cs:74-77, 435-438): each is `Dispose(true)`, so `BufferedBinaryReader.Dispose` covers them.
- The stream is file-like. Short reads from network or pipe streams, blocking, and a stream's own exceptions are not modelled.
- BufferedBinaryReader.ReadFixed: every multi-byte decode requires `DecodeFits`. When the buffered bytes fall short, the single refill must deliver the rest. Outside this, the code either copies stale bytes left from an earlier fill or throws inside its block copy. Neither behaviour is modelled. `ReaderCorrections.TailBeyondCapacityFails` shows that it fails whenever the tail exceeds the capacity, and `ReaderCorrections.SmallCapacityFails` when it fails on a new reader.
- BufferedBinaryReader.ReadSingle: returns the sign, exponent and fraction fields of the 32-bit IEEE-754 pattern, not a floating-point number. Floating-point arithmetic is not modelled, and ReadDouble likewise returns the fields of the 64-bit pattern.
- BufferedBinaryReader.Seek: requires the target to lie within the stream (`SeekInRange`). The code passes any target to the stream, and what the stream then does is not modelled.
- BufferedBinaryReader.Skip: requires a non-negative offset, and on a seekable stream a target within it. The code does not check either. Also, after a discard that runs out of bytes, the stream cursor has moved while the buffer cursors have not. The model reports only the EndOfStream error, not that inconsistent state.
- Integer widths: positions are unbounded here, while the code uses `int` and `long`. The decoded values are stated as the ranges of their C# types.
- The 8-byte scratch buffer and buffer allocation are not modelled. The model's buffer holds exactly the bytes of the last fill, because stale bytes beyond `cap` are unobservable under `DecodeFits`.
- Paths.IsLetter: `Char.IsLetter` and `ToLower` are culture-aware in the code. The model covers ASCII letters only.
- The `Paths` members built on `FileInfo` or the environment are not modelled: `GetAbsolutePath`, `GetRelativePath`, `GetFilenameWithoutExtension`, `GetExtension`, `GetFilenameWithAnotherExtension`, `GetPathFilenameWithoutExtension`, the `stringMethod=false` branches of `GetPath` and `GetFilename`, `ApplicationPath`, `ApplicationDataPath`, `ApplicationFilename` and `TempPath`.
- Paths.Delimiter: the platform is a parameter. `PlatformID` Win32NT, Win32S and Win32Windows map to `Windows`, and Unix and MacOSX map to their own cases. The code reads the separator from `System.IO.Path.DirectorySeparatorChar` independently of `Environment.OSVersion.Platform`; the model couples the two, taking '/' on Unix and MacOSX and '\\' on Windows and on `Other`.
- FileSystem/DirectoryOperations.cs and FileSystem/FileOperations.cs: they delegate to operating-system calls.
- Helper/ProcessHelper.cs: it only spawns processes.
- The store's `Load` and `Save` are not modelled, nor the file format, the backup-file handling, the `ioLock` lock and the two-argument `Add` that stamps `DateTime.Now`. Timestamps are given as tick counts.
- PersistenceKeyValueStorage.GetValues: returns the list's contents as a value. The code returns the stored `List` object itself, so a caller holding it sees a later `Add` clear and extend it, and the caller's own changes to it alter the store. That aliasing is not modelled.
- Null arguments are not modelled: strings here are never null. In the code a null key makes the store's dictionary throw ArgumentNull, a null value is stored as is, and a null string makes every `Paths` member throw NullReference.
- PersistenceKeyValueStorage.GetValue: requires the key to be present. The code's dictionary indexer throws KeyNotFound for an absent key, and `GetValues` has the same precondition.
- PersistenceKeyValueStorage.GetKeys: the dictionary's enumeration order is unspecified. The contract fixes only which keys appear, each once.

## Findings

| source | as written | input that shows it | evidently intended | confidence | as-written member | corrected member |
|---|---|---|---|---|---|---|
| Streams/BufferedBinaryReader.cs:231-232 | A value split across a refill sets `pos` past the tail with no further refill check. When the tail is as long as the capacity and the stream holds more, EOF is true and the next read throws, although the stream still has bytes. | capacity 1, stream 01 02 03, ReadInt16 then ReadByte (ReaderCorrections.BoundaryTailStalls) | refill again when the tail exhausts the buffer, so 03 is read | not executed | ReaderCorrections.StallCondition | ReaderCorrections.ReadExact |
| Streams/BufferedBinaryReader.cs:232 | The tail is copied from a buffer refilled once. Whenever the tail, the width minus the bytes still buffered, exceeds the capacity, the block copy asks for more bytes than the buffer holds. On a new reader this means a capacity below half the width. | capacity 4 with one byte buffered and 7 more available, ReadInt64 | refill as often as the value needs | not executed | ReaderCorrections.TailBeyondCapacityFails | ReaderCorrections.ReadExact |
| Streams/BufferedBinaryReader.cs:278 | ReadInt24 ORs three bytes into an int with no sign extension, so it always equals ReadUInt24. | bytes FF FF FF give 16777215 | -1: sign extension from bit 23 | not executed | ReaderCorrections.Int24NotSignExtended | ReaderCorrections.ReadInt24Signed |
| Streams/BufferedBinaryReader.cs:116-122 | Read checks `index` against the destination but copies to position 0. | one byte AA read into a 4-byte array at index 2 gives AA 00 00 00 | 00 00 AA 00 | not executed | ReaderCorrections.ReadIndexIgnored | ReaderCorrections.ReadAt |
| FileSystem/Paths.cs:177-182 | On Unix the root test runs after trimming '/', so "/" becomes empty and is not a root, while any longer absolute path is. | "/" gives false, "/usr" gives true | "/" is the root and "/usr" is not | not executed | Paths.UnixRootCounterexample | Paths.IsRootFixed |

=== FILE: buffered_binary_reader.dfy ===
/**
 * A buffered binary reader over a sequential byte source.
 *
 * The reader keeps one fixed-capacity buffer and two cursors into it: `pos`,
 * the next unread byte, and `cap`, one past the last byte the latest fill
 * delivered. It refills whenever `pos` reaches `cap`. The position a caller
 * sees is derived: the source's cursor minus the bytes still buffered.
 *
 * The reader is modelled as an immutable state value. Each operation takes a
 * state and returns the value it produces together with the next state, or
 * the exception the code throws.
 */
module BufferedBinaryReader {
  import opened Results
  import opened ByteSource
  import opened LittleEndian

  /** The exceptions the reader throws. */
  datatype Error =
    | ArgumentNull        // a required argument was null
    | ArgumentOutOfRange  // a negative count or index, or a capacity not above zero
    | Argument            // an unreadable source, or a destination too small
    | ObjectDisposed      // the reader was closed or detached
    | EndOfStream         // an exact-width decode or skip ran out of bytes
    | NotSupported        // seeking on a source that cannot seek
    | NullReference       // a property read through the forgotten source

  /**
   * The reader's state. `stream` is `None` once the reader has been disposed.
   * `buffer` holds the bytes the latest fill delivered, so its length is `cap`.
   */
  datatype Reader = Reader(stream: Option<Stream>, buffer: seq<byte>, pos: int, cap: int, bufferSize: int)

  /** A decoded value together with the reader state after the decode. */
  datatype Step<+T> = Step(value: T, next: Reader)

  /** The capacity the single-argument constructor uses. */
  const DefaultBufferSize: int := 0x10000

  /** The width of the scratch area that reassembles a value split across a refill. */
  const ScratchSize: nat := 8

  /**
   * The invariant every reached state keeps: the cursors are ordered within
   * the capacity, and the buffered bytes are exactly the source bytes just
   * before the source's cursor.
   */
  predicate Valid(r: Reader) {
    && 0 <= r.pos <= r.cap
    && r.cap == |r.buffer|
    && match r.stream
       case None => r.cap == 0
       case Some(s) =>
         && s.Valid() && s.canRead
         && 0 < r.bufferSize && r.cap <= r.bufferSize
         && r.cap <= s.position
         && r.buffer == s.data[s.position - r.cap .. s.position]
  }

  /** The position a caller sees: the source cursor minus the buffered-but-unread bytes. */
  function Logical(r: Reader): nat
    requires Valid(r) && r.stream.Some?
  {
    r.stream.value.position - (r.cap - r.pos)
  }

  /** The bytes of the source from the reader's position on. */
  function Unread(r: Reader): seq<byte>
    requires Valid(r) && r.stream.Some?
  {
    r.stream.value.data[Logical(r)..]
  }

  /**
   * The buffer is non-empty unless the source is exhausted. Construction and
   * every operation keep this, except a decode whose refill ends exactly at
   * the buffer's end (see `Decoded`).
   */
  predicate Live(r: Reader)
    requires Valid(r)
  {
    r.stream.None? || r.pos < r.cap || r.stream.value.position == |r.stream.value.data|
  }

  /** `r'` reads the same source as `r`, with the same capacity. */
  predicate SameSource(r: Reader, r': Reader) {
    && r.stream.Some? && r'.stream.Some?
    && SameContent(r.stream.value, r'.stream.value)
    && r'.bufferSize == r.bufferSize
  }

  /** The unconsumed part of the buffer is the start of the unread bytes. */
  lemma BufferedPrefix(r: Reader)
    requires Valid(r) && r.stream.Some?
    ensures r.cap - r.pos <= |Unread(r)|
    ensures r.buffer[r.pos..] == Unread(r)[..r.cap - r.pos]
  {
    var s := r.stream.value;
    assert r.buffer[r.pos..] == s.data[Logical(r) .. s.position];
  }

  /** What a fill needs: an open, readable source and a positive capacity. */
  predicate Fillable(r: Reader) {
    && r.stream.Some? && r.stream.value.Valid() && r.stream.value.canRead
    && r.bufferSize > 0
  }

  /**
   * FillBuffer: one read of up to `bufferSize` bytes; `pos` restarts at 0 and
   * `cap` becomes the count delivered. The new buffer starts at the old
   * physical cursor, so an exhausted buffer keeps its logical position.
   */
  function FillBuffer(r: Reader): (r': Reader)
    requires Fillable(r)
    ensures Valid(r') && Live(r') && SameSource(r, r')
    ensures r'.pos == 0 && r'.cap == r.stream.value.ReadCount(r.bufferSize)
    ensures Logical(r') == r.stream.value.position
    ensures Valid(r) && r.pos == r.cap ==> Logical(r') == Logical(r)
  {
    var s := r.stream.value;
    var n := s.ReadCount(r.bufferSize);
    r.(stream := Some(s.Advance(n)), buffer := s.data[s.position .. s.position + n], pos := 0, cap := n)
  }

  /**
   * The constructor over a source and a capacity: it rejects a missing or
   * unreadable source and a capacity not above zero, and otherwise performs
   * exactly one fill.
   */
  function New(input: Option<Stream>, bufferSize: int): (res: Result<Reader, Error>)
    requires input.Some? ==> input.value.Valid()
    ensures input.None? ==> res == Failure(ArgumentNull)
    ensures input.Some? && !input.value.canRead ==> res == Failure(Argument)
    ensures input.Some? && input.value.canRead && bufferSize <= 0 ==> res == Failure(ArgumentOutOfRange)
    ensures input.Some? && input.value.canRead && 0 < bufferSize ==>
      && res.Success? && Valid(res.value) && Live(res.value) && res.value.stream.Some?
      && SameContent(input.value, res.value.stream.value)
      && res.value.bufferSize == bufferSize
      && res.value.pos == 0 && res.value.cap == Min(bufferSize, input.value.Available())
      && Unread(res.value) == input.value.data[input.value.position..]
  {
    if input.None? then Failure(ArgumentNull)
    else if !input.value.canRead then Failure(Argument)
    else if bufferSize <= 0 then Failure(ArgumentOutOfRange)
    else Success(FillBuffer(Reader(input, [], 0, 0, bufferSize)))
  }

  /** The single-argument constructor: the same checks, with the default capacity of 64 KiB. */
  function NewDefault(input: Option<Stream>): (res: Result<Reader, Error>)
    requires input.Some? ==> input.value.Valid()
    ensures input.None? ==> res == Failure(ArgumentNull)
    ensures input.Some? && !input.value.canRead ==> res == Failure(Argument)
    ensures input.Some? && input.value.canRead ==>
      && res.Success? && res.value.bufferSize == DefaultBufferSize
      && res.value.cap == Min(DefaultBufferSize, input.value.Available())
  {
    New(input, DefaultBufferSize)
  }

  /** StreamPosition: the bytes between it and the source cursor are the unconsumed buffered bytes. */
  function StreamPosition(r: Reader): (res: Result<nat, Error>)
    requires Valid(r)
    ensures r.stream.None? ==> res == Failure(NullReference)
    ensures r.stream.Some? ==>
      && res.Success? && res.value <= r.stream.value.position
      && r.stream.value.data[res.value .. r.stream.value.position] == r.buffer[r.pos..]
  {
    match r.stream
    case None => Failure(NullReference)
    case Some(s) => Success(Logical(r))
  }

  /**
   * EOF: no buffered byte is left. On a live reader this is exactly
   * exhaustion of the source; a stalled reader reports EOF although the
   * source still holds bytes.
   */
  function EOF(r: Reader): (eof: bool)
    requires Valid(r)
    ensures r.stream.None? ==> eof
    ensures r.stream.Some? && !eof ==> |Unread(r)| > 0
    ensures r.stream.Some? && Live(r) ==> (eof <==> |Unread(r)| == 0)
    ensures r.stream.Some? && !Live(r) ==> eof && |Unread(r)| > 0
  {
    if r.stream.None? then r.cap <= r.pos
    else
      BufferedPrefix(r);
      r.cap <= r.pos
  }

  // ---------------------------------------------------------------------
  // Decodes
  // ---------------------------------------------------------------------

  /**
   * The outcome every decode of `width` bytes has: disposed and empty-buffer
   * failures first; otherwise the position advances by exactly `width` over
   * bytes that exist. The reader may end up with an empty buffer while the
   * source still holds data only when the capacity is below `width`.
   */
  predicate Decoded<T>(r: Reader, res: Result<Step<T>, Error>, width: nat)
    requires Valid(r)
  {
    match r.stream
    case None => res.Failure? && res.error == ObjectDisposed
    case Some(_) =>
      if r.cap <= r.pos then res.Failure? && res.error == EndOfStream
      else
        && res.Success?
        && width <= |Unread(r)|
        && Valid(res.value.next) && SameSource(r, res.value.next)
        && Logical(res.value.next) == Logical(r) + width
        && (Live(res.value.next) || r.bufferSize < width)
  }

  /** The shared body of ReadBoolean, ReadByte and ReadSByte. */
  function NextByte(r: Reader): (res: Result<Step<byte>, Error>)
    requires Valid(r)
    ensures Decoded(r, res, 1)
    ensures res.Success? ==> res.value.value == Unread(r)[0] && Live(res.value.next)
  {
    match r.stream
    case None => Failure(ObjectDisposed)
    case Some(_) =>
      if r.cap <= r.pos then Failure(EndOfStream)
      else
        BufferedPrefix(r);
        var r1 := r.(pos := r.pos + 1);
        Success(Step(r.buffer[r.pos], if r1.pos == r1.cap then FillBuffer(r1) else r1))
  }

  function ReadBoolean(r: Reader): (res: Result<Step<bool>, Error>)
    requires Valid(r)
    ensures Decoded(r, res, 1)
    ensures res.Success? ==> (res.value.value <==> Unread(r)[0] != 0)
  {
    match NextByte(r)
    case Failure(e) => Failure(e)
    case Success(Step(b, next)) => Success(Step(b != 0, next))
  }

  function ReadByte(r: Reader): (res: Result<Step<nat>, Error>)
    requires Valid(r)
    ensures Decoded(r, res, 1)
    ensures res.Success? ==> res.value.value < 256 && ToBytes(res.value.value, 1) == Unread(r)[..1]
  {
    match NextByte(r)
    case Failure(e) => Failure(e)
    case Success(Step(b, next)) =>
      ToBytesFromBytes([b]);
      Success(Step(b as nat, next))
  }

  function ReadSByte(r: Reader): (res: Result<Step<int>, Error>)
    requires Valid(r)
    ensures Decoded(r, res, 1)
    ensures res.Success? ==> EncodesSigned(res.value.value, 1, Unread(r)[..1])
  {
    match NextByte(r)
    case Failure(e) => Failure(e)
    case Success(Step(b, next)) =>
      ToBytesFromBytes([b]);
      ToSignedRoundTrip(b as nat, 1);
      Success(Step(ToSigned(b as nat, 1), next))
  }

  /**
   * The decode precondition: when the buffered bytes fall short of `width`,
   * the single refill must deliver the rest. Outside it the code copies
   * stale bytes or throws inside its block copy.
   */
  predicate DecodeFits(r: Reader, width: nat)
    requires Valid(r)
  {
    || r.stream.None? || r.cap <= r.pos || width <= r.cap - r.pos
    || width - (r.cap - r.pos) <= r.stream.value.ReadCount(r.bufferSize)
  }

  /**
   * Whatever the reader's state, a value no wider than the capacity that the
   * source still holds fits the single refill.
   */
  lemma WithinCapacityFits(r: Reader, width: nat)
    requires Valid(r) && r.stream.Some? && width <= r.bufferSize && width <= |Unread(r)|
    ensures DecodeFits(r, width)
  {
  }

  /**
   * Consumes `len` buffered bytes and refills when that exhausts the buffer,
   * as every decode does first.
   */
  function TakeBuffered(r: Reader, len: nat): (res: Step<seq<byte>>)
    requires Valid(r) && r.stream.Some? && 0 < len <= r.cap - r.pos
    ensures res.value == Unread(r)[..len]
    ensures Valid(res.next) && Live(res.next) && SameSource(r, res.next)
    ensures Logical(res.next) == Logical(r) + len
    ensures Unread(res.next) == Unread(r)[len..]
    ensures len < r.cap - r.pos ==> res.next.pos == r.pos + len && res.next.cap == r.cap
    ensures len == r.cap - r.pos ==>
      res.next.pos == 0 && res.next.cap == r.stream.value.ReadCount(r.bufferSize)
  {
    BufferedPrefix(r);
    var r1 := r.(pos := r.pos + len);
    Step(r.buffer[r.pos .. r.pos + len], if r1.pos == r1.cap then FillBuffer(r1) else r1)
  }

  /**
   * The tail of a boundary-crossing decode: copies `need` bytes from the
   * start of the freshly filled buffer and leaves `pos` just after them,
   * without the refill check the other paths make.
   */
  function TakeTail(r: Reader, need: nat): (res: Step<seq<byte>>)
    requires Valid(r) && r.stream.Some? && r.pos == 0 && need <= r.cap
    ensures res.value == Unread(r)[..need]
    ensures Valid(res.next) && SameSource(r, res.next)
    ensures Logical(res.next) == Logical(r) + need
    ensures !Live(res.next) <==> need == r.cap && r.stream.value.position < |r.stream.value.data|
  {
    BufferedPrefix(r);
    Step(r.buffer[.. need], r.(pos := need))
  }

  /**
   * A decode that crosses the refill: the buffered head and the tail taken
   * from the refilled buffer are the next `width` unread bytes, and the tail
   * can empty the buffer over a non-exhausted stream only when the capacity
   * is below `width`.
   */
  lemma SplitDecode(r: Reader, width: nat)
    requires Valid(r) && r.stream.Some? && r.pos < r.cap && r.cap - r.pos < width
    requires DecodeFits(r, width)
    ensures var head := TakeBuffered(r, r.cap - r.pos);
      && head.next.pos == 0 && width - (r.cap - r.pos) <= head.next.cap
      && var tail := TakeTail(head.next, width - (r.cap - r.pos));
      && head.value + tail.value == Unread(r)[..width]
      && Valid(tail.next) && SameSource(r, tail.next)
      && Logical(tail.next) == Logical(r) + width
      && (Live(tail.next) || r.bufferSize < width)
  {
    var len := r.cap - r.pos;
    var head := TakeBuffered(r, len);
    var tail := TakeTail(head.next, width - len);
    assert head.value + tail.value == Unread(r)[..width];
  }

  /**
   * The tail of a crossing decode empties the buffer over a non-exhausted
   * stream exactly when it is as long as the capacity and the refill did
   * not reach the end of the stream.
   */
  lemma CrossingStall(r: Reader, width: nat)
    requires Valid(r) && r.stream.Some? && r.pos < r.cap && r.cap - r.pos < width
    requires DecodeFits(r, width)
    ensures var head := TakeBuffered(r, r.cap - r.pos);
      && head.next.pos == 0 && width - (r.cap - r.pos) <= head.next.cap
      && var tail := TakeTail(head.next, width - (r.cap - r.pos));
      && (!Live(tail.next) <==>
            width - (r.cap - r.pos) == r.bufferSize && r.bufferSize < r.stream.value.Available())
  {
  }

  /**
   * The shared body of every multi-byte decode: copy what the buffer holds,
   * refill if it is exhausted, then copy the rest from the start of the new
   * buffer and leave `pos` just after it, with no second refill. The reader
   * is left stalled exactly when that tail is as long as the capacity and
   * the stream holds more than the refill took.
   */
  function ReadFixed(r: Reader, width: nat): (res: Result<Step<seq<byte>>, Error>)
    requires Valid(r) && 1 <= width <= ScratchSize && DecodeFits(r, width)
    ensures Decoded(r, res, width)
    ensures res.Success? ==> res.value.value == Unread(r)[..width]
    ensures res.Success? ==>
      (!Live(res.value.next) <==>
         && r.cap - r.pos < width
         && width - (r.cap - r.pos) == r.bufferSize
         && r.bufferSize < r.stream.value.Available())
  {
    match r.stream
    case None => Failure(ObjectDisposed)
    case Some(_) =>
      if r.cap <= r.pos then Failure(EndOfStream)
      else
        var len := Min(r.cap - r.pos, width);
        var head := TakeBuffered(r, len);
        if len < width then
          SplitDecode(r, width);
          CrossingStall(r, width);
          var tail := TakeTail(head.next, width - len);
          Success(Step(head.value + tail.value, tail.next))
        else
          Success(head)
  }

  /** `v` is the unsigned value whose `width` little-endian bytes are `bytes`. */
  predicate EncodesUnsigned(v: nat, width: nat, bytes: seq<byte>) {
    v < Pow256(width) && ToBytes(v, width) == bytes
  }

  /** `v` is the two's-complement value whose `width` little-endian bytes are `bytes`. */
  predicate EncodesSigned(v: int, width: nat, bytes: seq<byte>) {
    && 1 <= width
    && -Half(width) <= v < Half(width)
    && FromSigned(v, width) < Pow256(width)
    && ToBytes(FromSigned(v, width), width) == bytes
  }

  function Unsigned(r: Reader, width: nat): (res: Result<Step<nat>, Error>)
    requires Valid(r) && 1 <= width <= ScratchSize && DecodeFits(r, width)
    ensures Decoded(r, res, width)
    ensures res.Success? ==> EncodesUnsigned(res.value.value, width, Unread(r)[..width])
  {
    match ReadFixed(r, width)
    case Failure(e) => Failure(e)
    case Success(Step(bytes, next)) =>
      ToBytesFromBytes(bytes);
      Success(Step(FromBytes(bytes), next))
  }

  function Signed(r: Reader, width: nat): (res: Result<Step<int>, Error>)
    requires Valid(r) && 1 <= width <= ScratchSize && DecodeFits(r, width)
    ensures Decoded(r, res, width)
    ensures res.Success? ==> EncodesSigned(res.value.value, width, Unread(r)[..width])
  {
    match Unsigned(r, width)
    case Failure(e) => Failure(e)
    case Success(Step(u, next)) =>
      ToSignedRoundTrip(u, width);
      Success(Step(ToSigned(u, width), next))
  }

  function ReadInt16(r: Reader): (res: Result<Step<int>, Error>)
    requires Valid(r) && DecodeFits(r, 2)
    ensures Decoded(r, res, 2)
    ensures res.Success? ==> EncodesSigned(res.value.value, 2, Unread(r)[..2])
  {
    Signed(r, 2)
  }

  function ReadUInt16(r: Reader): (res: Result<Step<nat>, Error>)
    requires Valid(r) && DecodeFits(r, 2)
    ensures Decoded(r, res, 2)
    ensures res.Success? ==> EncodesUnsigned(res.value.value, 2, Unread(r)[..2])
  {
    Unsigned(r, 2)
  }

  /** ReadInt24 assembles three bytes with no sign extension, exactly as ReadUInt24 does. */
  function ReadInt24(r: Reader): (res: Result<Step<int>, Error>)
    requires Valid(r) && DecodeFits(r, 3)
    ensures Decoded(r, res, 3)
    ensures res.Success? ==> 0 <= res.value.value && EncodesUnsigned(res.value.value, 3, Unread(r)[..3])
  {
    match Unsigned(r, 3)
    case Failure(e) => Failure(e)
    case Success(Step(u, next)) => Success(Step(u as int, next))
  }

  function ReadUInt24(r: Reader): (res: Result<Step<nat>, Error>)
    requires Valid(r) && DecodeFits(r, 3)
    ensures Decoded(r, res, 3)
    ensures res.Success? ==> EncodesUnsigned(res.value.value, 3, Unread(r)[..3])
  {
    Unsigned(r, 3)
  }

  function ReadInt32(r: Reader): (res: Result<Step<int>, Error>)
    requires Valid(r) && DecodeFits(r, 4)
    ensures Decoded(r, res, 4)
    ensures res.Success? ==> EncodesSigned(res.value.value, 4, Unread(r)[..4])
  {
    Signed(r, 4)
  }

  function ReadUInt32(r: Reader): (res: Result<Step<nat>, Error>)
    requires Valid(r) && DecodeFits(r, 4)
    ensures Decoded(r, res, 4)
    ensures res.Success? ==> EncodesUnsigned(res.value.value, 4, Unread(r)[..4])
  {
    Unsigned(r, 4)
  }

  function ReadInt64(r: Reader): (res: Result<Step<int>, Error>)
    requires Valid(r) && DecodeFits(r, 8)
    ensures Decoded(r, res, 8)
    ensures res.Success? ==> EncodesSigned(res.value.value, 8, Unread(r)[..8])
  {
    Signed(r, 8)
  }

  function ReadUInt64(r: Reader): (res: Result<Step<nat>, Error>)
    requires Valid(r) && DecodeFits(r, 8)
    ensures Decoded(r, res, 8)
    ensures res.Success? ==> EncodesUnsigned(res.value.value, 8, Unread(r)[..8])
  {
    Unsigned(r, 8)
  }

  /** The fields of an IEEE-754 binary pattern: sign, biased exponent and fraction. */
  datatype FloatBits = FloatBits(negative: bool, exponent: nat, fraction: nat)

  /** The pattern the fields occupy, the exponent starting at `exponentUnit` and the sign at `signUnit`. */
  function Pack(f: FloatBits, exponentUnit: nat, signUnit: nat): nat {
    (if f.negative then signUnit else 0) + f.exponent * exponentUnit + f.fraction
  }

  /** A 32-bit pattern split into 1 sign, 8 exponent and 23 fraction bits. */
  function SingleFields(u: nat): (f: FloatBits)
    requires u < 0x1_0000_0000
    ensures f.exponent < 0x100 && f.fraction < 0x80_0000
    ensures Pack(f, 0x80_0000, 0x8000_0000) == u
  {
    var high := u / 0x80_0000;
    assert u == high * 0x80_0000 + u % 0x80_0000;
    assert high == (high / 0x100) * 0x100 + high % 0x100;
    assert high / 0x100 == u / 0x8000_0000;
    FloatBits(u >= 0x8000_0000, high % 0x100, u % 0x80_0000)
  }

  /** A 64-bit pattern split into 1 sign, 11 exponent and 52 fraction bits. */
  function DoubleFields(u: nat): (f: FloatBits)
    requires u < 0x1_0000_0000_0000_0000
    ensures f.exponent < 0x800 && f.fraction < 0x10_0000_0000_0000
    ensures Pack(f, 0x10_0000_0000_0000, 0x8000_0000_0000_0000) == u
  {
    var high := u / 0x10_0000_0000_0000;
    assert u == high * 0x10_0000_0000_0000 + u % 0x10_0000_0000_0000;
    assert high == (high / 0x800) * 0x800 + high % 0x800;
    assert high / 0x800 == u / 0x8000_0000_0000_0000;
    FloatBits(u >= 0x8000_0000_0000_0000, high % 0x800, u % 0x10_0000_0000_0000)
  }

  /**
   * ReadSingle, as the fields of the IEEE-754 single-precision pattern the
   * next four bytes hold; the floating-point value itself is not modelled.
   */
  function ReadSingle(r: Reader): (res: Result<Step<FloatBits>, Error>)
    requires Valid(r) && DecodeFits(r, 4)
    ensures Decoded(r, res, 4)
    ensures res.Success? ==>
      && res.value.value.exponent < 0x100 && res.value.value.fraction < 0x80_0000
      && EncodesUnsigned(Pack(res.value.value, 0x80_0000, 0x8000_0000), 4, Unread(r)[..4])
  {
    match Unsigned(r, 4)
    case Failure(e) => Failure(e)
    case Success(Step(u, next)) =>
      assert Pow256(4) == 0x1_0000_0000 by {
        assert Pow256(2) == 0x1_0000;
      }
      Success(Step(SingleFields(u), next))
  }

  /**
   * ReadDouble, as the fields of the IEEE-754 double-precision pattern the
   * next eight bytes hold.
   */
  function ReadDouble(r: Reader): (res: Result<Step<FloatBits>, Error>)
    requires Valid(r) && DecodeFits(r, 8)
    ensures Decoded(r, res, 8)
    ensures res.Success? ==>
      && res.value.value.exponent < 0x800 && res.value.value.fraction < 0x10_0000_0000_0000
      && EncodesUnsigned(Pack(res.value.value, 0x10_0000_0000_0000, 0x8000_0000_0000_0000), 8, Unread(r)[..8])
  {
    match Unsigned(r, 8)
    case Failure(e) => Failure(e)
    case Success(Step(u, next)) =>
      assert Pow256(8) == 0x1_0000_0000_0000_0000 by {
        assert Pow256(2) == 0x1_0000;
        assert Pow256(4) == 0x1_0000_0000;
        assert Pow256(6) == 0x1_0000_0000_0000;
      }
      Success(Step(DoubleFields(u), next))
  }

  // ---------------------------------------------------------------------
  // Seek and skip
  // ---------------------------------------------------------------------

  datatype SeekOrigin = Begin | Current | End

  /** The position an offset is relative to. */
  function SeekBase(r: Reader, origin: SeekOrigin): nat
    requires Valid(r) && r.stream.Some?
  {
    match origin
    case Begin => 0
    case Current => Logical(r)
    case End => |r.stream.value.data|
  }

  /** The seek target lies within the source; the reader does not check this itself. */
  predicate SeekInRange(r: Reader, offset: int, origin: SeekOrigin)
    requires Valid(r)
  {
    || r.stream.None? || !r.stream.value.canSeek
    || 0 <= SeekBase(r, origin) + offset <= |r.stream.value.data|
  }

  /**
   * Seek: moves the source to the target, refills, and returns the position
   * from before the seek.
   */
  function Seek(r: Reader, offset: int, origin: SeekOrigin): (res: Result<Step<nat>, Error>)
    requires Valid(r) && SeekInRange(r, offset, origin)
    ensures r.stream.None? ==> res == Failure(ObjectDisposed)
    ensures r.stream.Some? && !r.stream.value.canSeek ==> res == Failure(NotSupported)
    ensures r.stream.Some? && r.stream.value.canSeek ==>
      && res.Success? && res.value.value == Logical(r)
      && Valid(res.value.next) && Live(res.value.next) && SameSource(r, res.value.next)
      && res.value.next.pos == 0
      && Logical(res.value.next) == SeekBase(r, origin) + offset
      && Unread(res.value.next) == r.stream.value.data[SeekBase(r, origin) + offset..]
  {
    match r.stream
    case None => Failure(ObjectDisposed)
    case Some(s) =>
      if !s.canSeek then Failure(NotSupported)
      else
        var target := SeekBase(r, origin) + offset;
        Success(Step(Logical(r), FillBuffer(r.(stream := Some(s.(position := target))))))
  }

  /** CanSeek: true exactly when a seek to the current position would succeed. */
  function CanSeek(r: Reader): (c: bool)
    requires Valid(r)
    ensures c <==> Seek(r, 0, Current).Success?
  {
    r.stream.Some? && r.stream.value.canSeek
  }

  /**
   * The discard loop of Skip on a source that cannot seek: reads chunks of at
   * most `chunk` bytes until `remaining` bytes are gone, and throws
   * end-of-stream when a read delivers nothing.
   */
  function Discard(s: Stream, remaining: int, chunk: int): (res: Result<Stream, Error>)
    requires s.Valid() && 0 < remaining && 0 < chunk
    ensures res.Success? <==> remaining <= s.Available()
    ensures res.Success? ==> res.value == s.Advance(remaining)
    ensures res.Failure? ==> res.error == EndOfStream
    decreases remaining
  {
    var read := s.ReadCount(Min(remaining, chunk));
    if read == 0 then Failure(EndOfStream)
    else if remaining - read > 0 then Discard(s.Advance(read), remaining - read, chunk)
    else Success(s.Advance(read))
  }

  /** A skip by seeking stays within the source; the reader does not check this itself. */
  predicate SkipInRange(r: Reader, offset: int)
    requires Valid(r)
  {
    || r.stream.None? || r.cap <= r.pos || offset <= r.cap - r.pos || !r.stream.value.canSeek
    || Logical(r) + offset <= |r.stream.value.data|
  }

  /**
   * Skip: throws end-of-stream on an empty buffer even for offset 0; moves
   * within the buffer when it covers the offset, else seeks or discards.
   */
  function Skip(r: Reader, offset: int): (res: Result<Reader, Error>)
    requires Valid(r) && 0 <= offset && SkipInRange(r, offset)
    ensures r.stream.None? ==> res == Failure(ObjectDisposed)
    ensures r.stream.Some? && r.cap <= r.pos ==> res == Failure(EndOfStream)
    ensures r.stream.Some? && r.pos < r.cap ==>
      && (res.Success? <==> Logical(r) + offset <= |r.stream.value.data|)
      && (res.Failure? ==> res.error == EndOfStream)
      && (res.Success? ==>
            && Valid(res.value) && Live(res.value) && SameSource(r, res.value)
            && Logical(res.value) == Logical(r) + offset)
  {
    match r.stream
    case None => Failure(ObjectDisposed)
    case Some(s) =>
      if r.cap <= r.pos then Failure(EndOfStream)
      else if offset > r.cap - r.pos then
        if !s.canSeek then
          match Discard(s, offset - (r.cap - r.pos), r.bufferSize)
          case Failure(e) => Failure(e)
          case Success(s') => Success(FillBuffer(r.(stream := Some(s'))))
        else
          Success(Seek(r, offset, Current).value.next)
      else
        BufferedPrefix(r);
        var r1 := r.(pos := r.pos + offset);
        Success(if r1.pos == r1.cap then FillBuffer(r1) else r1)
  }

  // ---------------------------------------------------------------------
  // Lifecycle
  // ---------------------------------------------------------------------

  /** The reader after disposal, and the source it closed, if any. */
  datatype Disposal = Disposal(reader: Reader, closedStream: Option<Stream>)

  /**
   * Dispose: closes the source when `disposing` and a source is present,
   * forgets it and the buffer, and zeroes both cursors.
   */
  function Dispose(r: Reader, disposing: bool): (d: Disposal)
    ensures Valid(d.reader) && d.reader.stream.None? && EOF(d.reader)
    ensures d.reader.bufferSize == r.bufferSize
    ensures d.closedStream.Some? <==> disposing && r.stream.Some?
    ensures d.closedStream.Some? ==>
      && d.closedStream.value.closed && !d.closedStream.value.canRead
      && d.closedStream.value.data == r.stream.value.data
  {
    var closed := if disposing && r.stream.Some? then Some(r.stream.value.Close()) else None;
    Disposal(Reader(None, [], 0, 0, r.bufferSize), closed)
  }

  /** The source handed back by ReleaseInnerStream, and the now unusable reader. */
  datatype Release = Release(stream: Stream, reader: Reader)

  /**
   * ReleaseInnerStream: on a seekable source, rewinds the source to the
   * reader's position, hands it back unclosed and disposes the reader.
   */
  function ReleaseInnerStream(r: Reader): (res: Result<Release, Error>)
    requires Valid(r)
    ensures r.stream.None? ==> res == Failure(ObjectDisposed)
    ensures r.stream.Some? && !r.stream.value.canSeek ==> res == Failure(NotSupported)
    ensures r.stream.Some? && r.stream.value.canSeek ==>
      && res.Success?
      && res.value.stream.Valid() && SameContent(r.stream.value, res.value.stream)
      && res.value.stream.data[res.value.stream.position..] == Unread(r)
      && Success(res.value.stream.position) == StreamPosition(r)
      && Valid(res.value.reader) && res.value.reader.stream.None?
  {
    match r.stream
    case None => Failure(ObjectDisposed)
    case Some(s) =>
      if !s.canSeek then Failure(NotSupported)
      else
        var released := s.(position := Logical(r));
        // The field is cleared before Dispose runs, so the source is not closed.
        Success(Release(released, Dispose(r.(stream := None), true).reader))
  }

  // ---------------------------------------------------------------------
  // Raw reads
  // ---------------------------------------------------------------------

  /** The count of bytes copied, the destination afterwards, and the next reader. */
  datatype Copied = Copied(count: nat, target: seq<byte>, next: Reader)

  /**
   * What a raw read of `count` bytes into `target` at `at` achieves: every
   * byte available up to `count` unless the buffer is empty on entry, copied
   * in order to `target[at..]`, with the rest of `target` untouched.
   */
  predicate Transferred(r: Reader, target: seq<byte>, at: nat, count: nat, c: Copied)
    requires Valid(r) && r.stream.Some?
  {
    && c.count == (if r.cap <= r.pos then 0 else Min(count, |Unread(r)|))
    && Valid(c.next) && SameSource(r, c.next)
    && Logical(c.next) == Logical(r) + c.count
    && c.count <= |Unread(r)|
    && WrittenAt(c.target, target, at, Unread(r), c.count)
    && (c.count > 0 ==> Live(c.next))
    && (c.count == 0 ==> c.next == r)
  }

  /** `out` is `target` with `src[..n]` written at `at`. */
  predicate WrittenAt(out: seq<byte>, target: seq<byte>, at: nat, src: seq<byte>, n: nat)
    requires n <= |src|
  {
    && |out| == |target|
    && forall k | 0 <= k < |target| :: out[k] == if at <= k < at + n then src[k - at] else target[k]
  }

  /** Block copy of `bytes` into `out` at `start`. */
  function Splice(out: seq<byte>, start: nat, bytes: seq<byte>): (res: seq<byte>)
    requires start + |bytes| <= |out|
    ensures |res| == |out|
    ensures forall k | 0 <= k < |out| ::
      res[k] == if start <= k < start + |bytes| then bytes[k - start] else out[k]
  {
    out[..start] + bytes + out[start + |bytes|..]
  }

  /** Writing the next `len` source bytes after the first `n` extends the written prefix. */
  lemma WrittenAtExtend(out: seq<byte>, target: seq<byte>, at: nat, src: seq<byte>, n: nat, len: nat)
    requires n + len <= |src| && at + n + len <= |out|
    requires WrittenAt(out, target, at, src, n)
    ensures WrittenAt(Splice(out, at + n, src[n..n + len]), target, at, src, n + len)
  {
  }

  /** One pass of the copy loop: the next `len` buffered bytes extend the written prefix. */
  lemma CopyStep(r: Reader, cur: Reader, out: seq<byte>, target: seq<byte>, at: nat, copied: nat, len: nat)
    requires Valid(r) && r.stream.Some? && Valid(cur) && cur.stream.Some?
    requires copied + len <= |Unread(r)| && at + copied + len <= |out|
    requires 0 < len <= cur.cap - cur.pos && Unread(cur) == Unread(r)[copied..]
    requires WrittenAt(out, target, at, Unread(r), copied)
    ensures WrittenAt(Splice(out, at + copied, TakeBuffered(cur, len).value), target, at, Unread(r), copied + len)
    ensures Unread(TakeBuffered(cur, len).next) == Unread(r)[copied + len..]
  {
    BufferedPrefix(cur);
    assert Unread(r)[copied..][..len] == Unread(r)[copied .. copied + len];
    WrittenAtExtend(out, target, at, Unread(r), copied, len);
  }

  /**
   * The copy loop stops with every requested byte copied, or with the
   * buffer empty on a live reader, which means the source is exhausted.
   */
  lemma CopyFinished(r: Reader, cur: Reader, copied: nat, remaining: nat, count: nat)
    requires Valid(r) && r.stream.Some? && Valid(cur) && SameSource(r, cur)
    requires copied + remaining == count && copied <= |Unread(r)|
    requires Logical(cur) == Logical(r) + copied
    requires copied > 0 ==> Live(cur)
    requires copied == 0 ==> cur == r
    requires !(0 < remaining && cur.pos < cur.cap)
    ensures r.pos < r.cap ==> copied == Min(count, |Unread(r)|)
  {
    if r.pos < r.cap && 0 < remaining {
      assert copied > 0;
      assert Logical(cur) == |r.stream.value.data|;
    }
  }

  /**
   * The copy loop of Read. The code's do-while makes a first pass even
   * for count 0, but that pass moves nothing, so a while loop is equivalent.
   */
  method CopyOut(r: Reader, target: seq<byte>, at: nat, count: nat) returns (c: Copied)
    requires Valid(r) && r.stream.Some? && at + count <= |target|
    ensures Transferred(r, target, at, count, c)
  {
    var cur := r;
    var out := target;
    var copied := 0;
    var remaining := count;
    while 0 < remaining && cur.pos < cur.cap
      invariant Valid(cur) && SameSource(r, cur)
      invariant 0 <= remaining && copied + remaining == count
      invariant Logical(cur) == Logical(r) + copied
      invariant copied <= |Unread(r)|
      invariant Unread(cur) == Unread(r)[copied..]
      invariant WrittenAt(out, target, at, Unread(r), copied)
      invariant copied > 0 ==> Live(cur)
      invariant copied == 0 ==> cur == r
      invariant r.cap <= r.pos ==> copied == 0
      decreases remaining
    {
      var len := Min(cur.cap - cur.pos, remaining);
      var step := TakeBuffered(cur, len);
      BufferedPrefix(cur);
      CopyStep(r, cur, out, target, at, copied, len);
      out := Splice(out, at + copied, step.value);
      cur := step.next;
      copied := copied + len;
      remaining := remaining - len;
    }
    CopyFinished(r, cur, copied, remaining, count);
    c := Copied(copied, out, cur);
  }

  /** The argument checks Read makes before touching the reader, in the code's order. */
  function ReadArgumentError(r: Reader, target: Option<seq<byte>>, index: int, count: int): Option<Error> {
    if target.None? then Some(ArgumentNull)
    else if index < 0 || count < 0 then Some(ArgumentOutOfRange)
    else if |target.value| - index < count then Some(Argument)
    else if r.stream.None? then Some(ObjectDisposed)
    else None
  }

  /**
   * Read: copies up to `count` bytes. It checks `index` against the
   * destination but writes from position 0, whatever `index` is.
   */
  method Read(r: Reader, target: Option<seq<byte>>, index: int, count: int) returns (res: Result<Copied, Error>)
    requires Valid(r)
    ensures res.Failure? <==> ReadArgumentError(r, target, index, count).Some?
    ensures res.Failure? ==> res.error == ReadArgumentError(r, target, index, count).value
    ensures res.Success? ==> Transferred(r, target.value, 0, count, res.value)
  {
    var err := ReadArgumentError(r, target, index, count);
    if err.Some? {
      return Failure(err.value);
    }
    var c := CopyOut(r, target.value, 0, count);
    return Success(c);
  }

  /**
   * ReadBytes: reads until `count` bytes are collected or a read delivers
   * nothing, and returns exactly the bytes obtained.
   */
  method ReadBytes(r: Reader, count: int) returns (res: Result<Step<seq<byte>>, Error>)
    requires Valid(r)
    ensures count < 0 ==> res == Failure(ArgumentOutOfRange)
    ensures 0 <= count && r.stream.None? ==> res == Failure(ObjectDisposed)
    ensures 0 <= count && r.stream.Some? ==>
      && res.Success?
      && |res.value.value| == (if r.cap <= r.pos then 0 else Min(count, |Unread(r)|))
      && res.value.value == Unread(r)[..|res.value.value|]
      && Valid(res.value.next) && SameSource(r, res.value.next)
      && Logical(res.value.next) == Logical(r) + |res.value.value|
      && (|res.value.value| > 0 ==> Live(res.value.next))
  {
    if count < 0 {
      return Failure(ArgumentOutOfRange);
    }
    if r.stream.None? {
      return Failure(ObjectDisposed);
    }
    var buffer: seq<byte> := seq(count, _ => 0);
    var offset := 0;
    var remaining := count;
    var cur := r;
    while 0 < remaining
      invariant Valid(cur) && SameSource(r, cur)
      invariant 0 <= offset && 0 <= remaining && offset + remaining == count
      invariant |buffer| == count
      invariant Logical(cur) == Logical(r) + offset
      invariant offset <= |Unread(r)|
      invariant buffer[..offset] == Unread(r)[..offset]
      invariant offset == 0 ==> cur == r
      invariant offset > 0 ==> Live(cur) && offset == Min(count, |Unread(r)|) && r.pos < r.cap
      decreases remaining
    {
      if offset > 0 {
        BufferedPrefix(cur);
      }
      // The code passes `offset` as the index, which Read does not use:
      // every read lands at position 0.
      var c := CopyOut(cur, buffer, 0, remaining);
      if c.count == 0 {
        break;
      }
      buffer := c.target;
      offset := offset + c.count;
      remaining := remaining - c.count;
      cur := c.next;
    }
    return Success(Step(buffer[..offset], cur));
  }
}

=== FILE: byte_source.dfy ===
/**
 * The byte source a reader consumes, modelled as a file-like stream: its whole
 * content is known, a read of `n` bytes delivers `min(n, remaining)` bytes and
 * never fewer, and the cursor can be placed anywhere inside the content.
 */
module ByteSource {
  import opened Results
  import opened LittleEndian

  datatype Stream = Stream(data: seq<byte>, position: nat, canRead: bool, canSeek: bool, closed: bool) {

    /** The cursor lies inside the content, and a closed stream can neither read nor seek. */
    predicate Valid() {
      && position <= |data|
      && (closed ==> !canRead && !canSeek)
    }

    /** Bytes between the cursor and the end of the content. */
    function Available(): nat
      requires Valid()
    {
      |data| - position
    }

    /** The number of bytes one read of at most `n` bytes delivers. */
    function ReadCount(n: nat): nat
      requires Valid()
    {
      Min(n, Available())
    }

    /** The stream after `k` more bytes have been consumed or skipped. */
    function Advance(k: nat): Stream
      requires Valid() && k <= Available()
    {
      this.(position := position + k)
    }

    /** The stream after its own close: it refuses further reads and seeks. */
    function Close(): Stream {
      this.(closed := true, canRead := false, canSeek := false)
    }
  }

  /** `t` is the stream `s` with at most its cursor moved. */
  predicate SameContent(s: Stream, t: Stream) {
    t == s.(position := t.position)
  }
}

=== FILE: little_endian.dfy ===
/**
 * Little-endian assembly of fixed-width integers from bytes, and the
 * two's-complement reading of an unsigned pattern. These replace the
 * unsafe reinterpreting casts of the reader's multi-byte decodes.
 */
module LittleEndian {

  /** An octet. */
  newtype byte = b: int | 0 <= b < 256

  /** 256 to the power `n`: the number of distinct `n`-byte patterns. */
  function Pow256(n: nat): (p: nat)
    ensures p >= 1
  {
    if n == 0 then 1 else 256 * Pow256(n - 1)
  }

  /** The unsigned value whose little-endian bytes are `bs` (first byte least significant). */
  function FromBytes(bs: seq<byte>): nat {
    if |bs| == 0 then 0 else bs[0] as nat + 256 * FromBytes(bs[1..])
  }

  /** The `width` little-endian bytes of `v`. */
  function ToBytes(v: nat, width: nat): (bs: seq<byte>)
    requires v < Pow256(width)
    ensures |bs| == width
  {
    if width == 0 then [] else [(v % 256) as byte] + ToBytes(v / 256, width - 1)
  }

  lemma {:induction false} FromBytesBound(bs: seq<byte>)
    ensures FromBytes(bs) < Pow256(|bs|)
  {
    if |bs| > 0 {
      FromBytesBound(bs[1..]);
    }
  }

  /** Encoding after decoding gives back the bytes. */
  lemma {:induction false} ToBytesFromBytes(bs: seq<byte>)
    ensures FromBytes(bs) < Pow256(|bs|)
    ensures ToBytes(FromBytes(bs), |bs|) == bs
  {
    FromBytesBound(bs);
    if |bs| > 0 {
      ToBytesFromBytes(bs[1..]);
      var v := FromBytes(bs);
      assert v % 256 == bs[0] as nat;
      assert v / 256 == FromBytes(bs[1..]);
    }
  }

  /** Decoding after encoding gives back the value. */
  lemma {:induction false} FromBytesToBytes(v: nat, width: nat)
    requires v < Pow256(width)
    ensures FromBytes(ToBytes(v, width)) == v
  {
    if width > 0 {
      var q, r := v / 256, v % 256;
      DivBound(v, Pow256(width - 1));
      FromBytesToBytes(q, width - 1);
      var bs := ToBytes(v, width);
      assert bs == [r as byte] + ToBytes(q, width - 1);
      ByteRoundTrip(r);
      assert bs[1..] == ToBytes(q, width - 1);
      calc {
        FromBytes(bs);
        bs[0] as nat + 256 * FromBytes(bs[1..]);
        r + 256 * q;
        v;
      }
    }
  }

  lemma ByteRoundTrip(x: nat)
    requires x < 256
    ensures (x as byte) as nat == x
  {
  }

  lemma DivBound(v: nat, p: nat)
    requires v < 256 * p
    ensures v / 256 < p
  {
  }

  /** The smallest unsigned pattern of `width` bytes whose top bit is set. */
  function Half(width: nat): int
    requires width >= 1
  {
    Pow256(width) / 2
  }

  /** Two's-complement reading of a `width`-byte unsigned pattern. */
  function ToSigned(u: nat, width: nat): int
    requires width >= 1 && u < Pow256(width)
  {
    if u < Half(width) then u else u - Pow256(width)
  }

  /** The `width`-byte two's-complement pattern of `v`. */
  function FromSigned(v: int, width: nat): nat
    requires width >= 1 && -Half(width) <= v < Half(width)
  {
    if v < 0 then v + Pow256(width) else v
  }

  lemma HalfIsHalf(width: nat)
    requires width >= 1
    ensures Pow256(width) == 2 * Half(width)
  {
    assert Pow256(width) == 256 * Pow256(width - 1);
  }

  /** Reading a pattern as signed lands in range and writing it back restores the pattern. */
  lemma ToSignedRoundTrip(u: nat, width: nat)
    requires width >= 1 && u < Pow256(width)
    ensures -Half(width) <= ToSigned(u, width) < Half(width)
    ensures FromSigned(ToSigned(u, width), width) == u
  {
    HalfIsHalf(width);
  }

  /** Writing a signed value as a pattern and reading it back restores the value. */
  lemma FromSignedRoundTrip(v: int, width: nat)
    requires width >= 1 && -Half(width) <= v < Half(width)
    ensures FromSigned(v, width) < Pow256(width)
    ensures ToSigned(FromSigned(v, width), width) == v
  {
    HalfIsHalf(width);
  }
}

=== FILE: paths.dfy ===
/**
 * The string predicates and transforms of the Paths helper: separator and
 * UNC tests, absolute and root tests per platform, illegal-character
 * filtering, and splitting at the last separator. The platform, and with it
 * the path delimiter, is a parameter.
 */
module Paths {
  import opened Results

  /** The host platforms the helper distinguishes. */
  datatype Platform = Windows | Unix | MacOSX | Other

  /** The exceptions the modelled members can throw. */
  datatype PathError = NotImplemented | IndexOutOfRange

  /** The directory separator of the platform. */
  function Delimiter(p: Platform): char {
    if p.Unix? || p.MacOSX? then '/' else '\\'
  }

  predicate IsSeparator(c: char) {
    c == '/' || c == '\\'
  }

  /** ASCII letters; the culture-aware letter test is not modelled. */
  predicate IsLetter(c: char) {
    ('a' <= c <= 'z') || ('A' <= c <= 'Z')
  }

  /** ASCII lower-casing of one character. */
  function ToLowerChar(c: char): (l: char)
    ensures 'a' <= l <= 'z' <==> IsLetter(c)
    ensures 'A' <= c <= 'Z' ==> l as int == c as int + 32
    ensures !('A' <= c <= 'Z') ==> l == c
  {
    if 'A' <= c <= 'Z' then (c as int + 32) as char else c
  }

  function ToLower(s: string): (l: string)
    ensures |l| == |s|
    ensures forall k | 0 <= k < |s| :: l[k] == ToLowerChar(s[k])
  {
    seq(|s|, k requires 0 <= k < |s| => ToLowerChar(s[k]))
  }

  // ---------------------------------------------------------------------
  // Trimming
  // ---------------------------------------------------------------------

  /** `t` is `s` without its longest suffix drawn from `chars`. */
  predicate IsTrimmed(s: string, chars: set<char>, t: string) {
    && |t| <= |s| && t == s[..|t|]
    && (forall k | |t| <= k < |s| :: s[k] in chars)
    && (|t| == 0 || t[|t| - 1] !in chars)
  }

  /** String.TrimEnd: removes every trailing character found in `chars`. */
  function TrimEnd(s: string, chars: set<char>): (t: string)
    ensures IsTrimmed(s, chars, t)
    decreases |s|
  {
    if |s| > 0 && s[|s| - 1] in chars then TrimEnd(s[..|s| - 1], chars) else s
  }

  /** The trimmed form is unique, so any string meeting `IsTrimmed` is the result of TrimEnd. */
  lemma TrimmedUnique(s: string, chars: set<char>, t: string)
    requires IsTrimmed(s, chars, t)
    ensures TrimEnd(s, chars) == t
  {
  }

  // ---------------------------------------------------------------------
  // Predicates
  // ---------------------------------------------------------------------

  /**
   * A separator survives trimming the trailing separators exactly when some
   * separator is followed, later, by a character that is not one.
   */
  lemma {:induction false} SeparatorSurvivesTrim(filename: string, t: string)
    requires t == TrimEnd(filename, {'/', '\\'})
    ensures (exists k | 0 <= k < |t| :: IsSeparator(t[k])) <==>
      exists i, j | 0 <= i < j < |filename| :: IsSeparator(filename[i]) && !IsSeparator(filename[j])
  {
    if exists k | 0 <= k < |t| :: IsSeparator(t[k]) {
      var k :| 0 <= k < |t| && IsSeparator(t[k]);
      assert IsSeparator(filename[k]) && !IsSeparator(filename[|t| - 1]);
    }
    if exists i, j | 0 <= i < j < |filename| :: IsSeparator(filename[i]) && !IsSeparator(filename[j]) {
      var i, j :| 0 <= i < j < |filename| && IsSeparator(filename[i]) && !IsSeparator(filename[j]);
      assert j < |t|;
      assert IsSeparator(t[i]);
    }
  }

  /**
   * IsPath: a separator remains once trailing separators are stripped, that
   * is, some separator is followed later by a character that is not one.
   */
  function IsPath(filename: string): (b: bool)
    ensures b <==>
      exists i, j | 0 <= i < j < |filename| :: IsSeparator(filename[i]) && !IsSeparator(filename[j])
  {
    var t := TrimEnd(filename, {'/', '\\'});
    SeparatorSurvivesTrim(filename, t);
    exists k | 0 <= k < |t| :: IsSeparator(t[k])
  }

  /** IsNetworkPath: a UNC path, at least three characters long. */
  function IsNetworkPath(path: string): (r: bool)
    ensures r <==> |path| >= 3 && path[0] == '\\' && path[1] == '\\'
  {
    if |path| < 3 then false
    else if !IsLetter(path[0]) then path[0] == '\\' && path[1] == '\\'
    else false
  }

  /** IsAbsolute: a drive or UNC path on Windows, a leading '/' elsewhere; other platforms throw. */
  function IsAbsolute(path: string, platform: Platform): (res: Result<bool, PathError>)
    ensures platform.Other? <==> res.Failure?
    ensures res.Failure? ==> res.error == NotImplemented
    ensures platform.Windows? ==> res.Success? && (res.value <==>
      || IsNetworkPath(path)
      || (|path| >= 3 && IsLetter(path[0]) && path[1] == ':' && IsSeparator(path[2])))
    ensures platform.Unix? || platform.MacOSX? ==> res.Success? && (res.value <==> |path| > 0 && path[0] == '/')
  {
    match platform
    case Windows =>
      if |path| < 3 then Success(false)
      else if !IsLetter(path[0]) then
        if path[0] != '\\' then Success(false)
        else if path[1] != '\\' then Success(false)
        else Success(true)
      else if path[1] != ':' then Success(false)
      else if path[2] != '\\' && path[2] != '/' then Success(false)
      else Success(true)
    case Unix => Success(|path| > 0 && path[0] == '/')
    case MacOSX => Success(|path| > 0 && path[0] == '/')
    case Other => Failure(NotImplemented)
  }

  // ---------------------------------------------------------------------
  // Illegal characters
  // ---------------------------------------------------------------------

  /** The characters the helper rejects in a file name: `<>:"|`, the controls and U+FFFD. */
  predicate IsIllegalChar(c: char) {
    c == '<' || c == '>' || c == ':' || c == '"' || c == '|' || c < ' ' || c == '\U{FFFD}'
  }

  /** String.IndexOfAny over the illegal characters. */
  function IndexOfIllegal(s: string): (i: Option<nat>)
    ensures i.None? <==> forall k | 0 <= k < |s| :: !IsIllegalChar(s[k])
    ensures i.Some? ==>
      && i.value < |s| && IsIllegalChar(s[i.value])
      && forall k | 0 <= k < i.value :: !IsIllegalChar(s[k])
  {
    if |s| == 0 then None
    else if IsIllegalChar(s[0]) then Some(0)
    else match IndexOfIllegal(s[1..])
      case None => None
      case Some(j) => Some(j + 1)
  }

  function IsFilenameValid(filename: string): (r: bool)
    ensures r <==> forall k | 0 <= k < |filename| :: !IsIllegalChar(filename[k])
  {
    IndexOfIllegal(filename).None?
  }

  /** IsLocalPath: not a network path, and either absolute or a non-empty valid name. */
  function IsLocalPath(path: string, platform: Platform): (res: Result<bool, PathError>)
    ensures res.Failure? <==> platform.Other? && !IsNetworkPath(path)
    ensures res.Success? ==> (res.value <==>
      && !IsNetworkPath(path)
      && (IsAbsolute(path, platform).value || (|path| >= 1 && IsFilenameValid(path))))
  {
    if IsNetworkPath(path) then Success(false)
    else match IsAbsolute(path, platform)
      case Failure(e) => Failure(e)
      case Success(absolute) =>
        if absolute then Success(true)
        else if |path| < 1 then Success(false)
        else if IndexOfIllegal(path).Some? then Success(false)
        else Success(true)
  }

  /** The reference filter: `s` with every illegal character dropped, order kept. */
  function WithoutIllegal(s: string): string {
    if |s| == 0 then []
    else (if IsIllegalChar(s[0]) then [] else [s[0]]) + WithoutIllegal(s[1..])
  }

  lemma {:induction false} WithoutIllegalAppend(a: string, b: string)
    ensures WithoutIllegal(a + b) == WithoutIllegal(a) + WithoutIllegal(b)
  {
    if |a| > 0 {
      assert (a + b)[1..] == a[1..] + b;
      WithoutIllegalAppend(a[1..], b);
    } else {
      assert a + b == b;
    }
  }

  /** Dropping one illegal character does not change the filtered string. */
  lemma RemoveIllegalKeepsFilter(s: string, i: nat)
    requires i < |s| && IsIllegalChar(s[i])
    ensures WithoutIllegal(s[..i] + s[i + 1..]) == WithoutIllegal(s)
  {
    var front, back := s[..i], s[i + 1..];
    SplitAround(s, i);
    DropIllegalHead(s[i], back);
    WithoutIllegalAppend(front, [s[i]] + back);
    WithoutIllegalAppend(front, back);
  }

  /** A string is its prefix, one character and the rest. */
  lemma SplitAround(s: string, i: nat)
    requires i < |s|
    ensures s == s[..i] + ([s[i]] + s[i + 1..])
  {
  }

  /** The filter drops a leading illegal character. */
  lemma DropIllegalHead(c: char, back: string)
    requires IsIllegalChar(c)
    ensures WithoutIllegal([c] + back) == WithoutIllegal(back)
  {
    assert ([c] + back)[1..] == back;
  }

  /** The filter leaves exactly the valid strings unchanged. */
  lemma {:induction false} WithoutIllegalFixed(s: string)
    ensures WithoutIllegal(s) == s <==> IsFilenameValid(s)
  {
    if |s| > 0 {
      WithoutIllegalFixed(s[1..]);
      WithoutIllegalLength(s[1..]);
      if IsFilenameValid(s) {
        assert IsFilenameValid(s[1..]) by {
          forall k | 0 <= k < |s[1..]| ensures !IsIllegalChar(s[1..][k]) {
            assert s[1..][k] == s[k + 1];
          }
        }
        assert s == [s[0]] + s[1..];
      }
      if WithoutIllegal(s) == s && !IsIllegalChar(s[0]) {
        assert WithoutIllegal(s[1..]) == s[1..];
        forall k | 0 <= k < |s| ensures !IsIllegalChar(s[k]) {
          if k > 0 {
            assert s[k] == s[1..][k - 1];
          }
        }
      }
    }
  }

  lemma {:induction false} WithoutIllegalLength(s: string)
    ensures |WithoutIllegal(s)| <= |s|
  {
    if |s| > 0 {
      WithoutIllegalLength(s[1..]);
    }
  }

  /** The filtered string is a valid file name. */
  lemma {:induction false} WithoutIllegalValid(s: string)
    ensures IsFilenameValid(WithoutIllegal(s))
  {
    if |s| > 0 {
      WithoutIllegalValid(s[1..]);
      var head: string := if IsIllegalChar(s[0]) then [] else [s[0]];
      var w := head + WithoutIllegal(s[1..]);
      forall k | 0 <= k < |w| ensures !IsIllegalChar(w[k]) {
        if k >= |head| {
          assert w[k] == WithoutIllegal(s[1..])[k - |head|];
        }
      }
    }
  }

  /** Filtering twice equals filtering once. */
  lemma WithoutIllegalIdempotent(s: string)
    ensures WithoutIllegal(WithoutIllegal(s)) == WithoutIllegal(s)
  {
    WithoutIllegalValid(s);
    WithoutIllegalFixed(WithoutIllegal(s));
  }

  /**
   * GetValidFilename: removes the first illegal character until none is
   * left. The result is the reference filter of the input.
   */
  method GetValidFilename(filename: string) returns (r: string)
    ensures r == WithoutIllegal(filename)
    ensures IsFilenameValid(r)
  {
    r := filename;
    var index := IndexOfIllegal(r);
    while index.Some?
      invariant WithoutIllegal(r) == WithoutIllegal(filename)
      invariant index == IndexOfIllegal(r)
      decreases |r|
    {
      RemoveIllegalKeepsFilter(r, index.value);
      r := r[..index.value] + r[index.value + 1..];
      index := IndexOfIllegal(r);
    }
    WithoutIllegalFixed(r);
  }

  // ---------------------------------------------------------------------
  // Roots
  // ---------------------------------------------------------------------

  /**
   * IsRoot as written: trailing delimiters are trimmed and the rest lowered
   * before the platform test, so on Unix the trimmed "/" is empty.
   */
  function IsRoot(path: string, platform: Platform): (res: Result<bool, PathError>)
    ensures platform.Other? <==> res.Failure?
    ensures res.Failure? ==> res.error == NotImplemented
  {
    var t := ToLower(TrimEnd(path, {Delimiter(platform)}));
    match platform
    case Windows => Success(|t| == 2 && 'a' <= t[0] <= 'z' && t[1] == ':')
    case Unix => Success(|t| > 0 && t[0] == '/')
    case MacOSX => Success(|t| > 0 && t[0] == '/')
    case Other => Failure(NotImplemented)
  }

  /** On Windows the roots are a drive letter and a colon, followed only by delimiters. */
  lemma WindowsRootIff(path: string)
    ensures IsRoot(path, Windows).Success?
    ensures IsRoot(path, Windows).value <==>
      && |path| >= 2 && IsLetter(path[0]) && path[1] == ':'
      && forall k | 2 <= k < |path| :: path[k] == '\\'
  {
    var u := TrimEnd(path, {'\\'});
    if |path| >= 2 && IsLetter(path[0]) && path[1] == ':' && forall k | 2 <= k < |path| :: path[k] == '\\' {
      TrimmedUnique(path, {'\\'}, path[..2]);
    }
  }

  /**
   * As written, on Unix and Mac a path counts as a root when it starts with
   * '/' and holds some other character; a path of delimiters alone does not.
   */
  lemma UnixRootAsWritten(path: string, platform: Platform)
    requires platform.Unix? || platform.MacOSX?
    ensures IsRoot(path, platform).Success?
    ensures IsRoot(path, platform).value <==>
      |path| > 0 && path[0] == '/' && exists k | 0 <= k < |path| :: path[k] != '/'
  {
    var u := TrimEnd(path, {'/'});
    if |path| > 0 && path[0] == '/' && exists k | 0 <= k < |path| :: path[k] != '/' {
      var k :| 0 <= k < |path| && path[k] != '/';
      assert k < |u|;
    }
  }

  /** The discrepancy on two inputs: "/" is not a root, "/usr" is. */
  lemma UnixRootCounterexample(slash: string, usr: string)
    requires slash == "/" && usr == "/usr"
    ensures IsRoot(slash, Unix) == Success(false)
    ensures IsRoot(usr, Unix) == Success(true)
  {
    UnixRootAsWritten(slash, Unix);
    UnixRootAsWritten(usr, Unix);
    assert usr[1] != '/';
  }

  /**
   * The corrected root test: on Unix and Mac the root is a non-empty run of
   * delimiters; Windows and other platforms as before.
   */
  function IsRootFixed(path: string, platform: Platform): (res: Result<bool, PathError>)
    ensures platform.Other? <==> res.Failure?
    ensures platform.Windows? ==> res == IsRoot(path, platform)
    ensures platform.Unix? || platform.MacOSX? ==>
      && res.Success?
      && (res.value <==> |path| > 0 && forall k | 0 <= k < |path| :: path[k] == '/')
  {
    match platform
    case Unix => Success(|path| > 0 && TrimEnd(path, {'/'}) == [])
    case MacOSX => Success(|path| > 0 && TrimEnd(path, {'/'}) == [])
    case _ => IsRoot(path, platform)
  }

  /** With the correction, "/" is a root and "/usr" is not. */
  lemma UnixRootFixed(slash: string, usr: string)
    requires slash == "/" && usr == "/usr"
    ensures IsRootFixed(slash, Unix) == Success(true)
    ensures IsRootFixed(usr, Unix) == Success(false)
  {
    assert usr[1] != '/';
  }

  // ---------------------------------------------------------------------
  // Splitting at the last separator
  // ---------------------------------------------------------------------

  /** The index of the last '/' or '\\', scanning from the end. */
  function LastSeparator(s: string): (i: Option<nat>)
    ensures i.None? <==> forall k | 0 <= k < |s| :: !IsSeparator(s[k])
    ensures i.Some? ==>
      && i.value < |s| && IsSeparator(s[i.value])
      && forall k | i.value < k < |s| :: !IsSeparator(s[k])
    decreases |s|
  {
    if |s| == 0 then None
    else if IsSeparator(s[|s| - 1]) then Some(|s| - 1)
    else LastSeparator(s[..|s| - 1])
  }

  /** GetPathWithPathDelimiter: trailing delimiters replaced by exactly one. */
  function GetPathWithPathDelimiter(path: string, platform: Platform): (r: string)
    ensures 1 <= |r| <= |path| + 1 && r[|r| - 1] == Delimiter(platform)
    ensures |r| == 1 || r[|r| - 2] != Delimiter(platform)
    ensures r[..|r| - 1] == path[..|r| - 1]
    ensures forall k | |r| - 1 <= k < |path| :: path[k] == Delimiter(platform)
  {
    TrimEnd(path, {Delimiter(platform)}) + [Delimiter(platform)]
  }

  lemma GetPathWithPathDelimiterIdempotent(path: string, platform: Platform)
    ensures var once := GetPathWithPathDelimiter(path, platform);
      GetPathWithPathDelimiter(once, platform) == once
  {
    var d := Delimiter(platform);
    var t := TrimEnd(path, {d});
    TrimmedUnique(t + [d], {d}, t);
  }

  /** GetPath with the string method: the part before the last separator. */
  function GetPath(filename: string, delimiterAtEnd: bool, platform: Platform): (res: Result<string, PathError>)
    ensures res.Failure? <==> |filename| == 0
    ensures res.Failure? ==> res.error == IndexOutOfRange
  {
    if |filename| == 0 then Failure(IndexOutOfRange)
    else if filename[|filename| - 1] == Delimiter(platform) then Success(filename)
    else match LastSeparator(filename)
      case None => Success([])
      case Some(i) =>
        Success(filename[..i] + if delimiterAtEnd then [Delimiter(platform)] else [])
  }

  /** GetFilename with the string method: the part after the last separator. */
  function GetFilename(filename: string, platform: Platform): (res: Result<string, PathError>)
    ensures res.Failure? <==> |filename| == 0
    ensures res.Failure? ==> res.error == IndexOutOfRange
  {
    if |filename| == 0 then Failure(IndexOutOfRange)
    else if filename[|filename| - 1] == Delimiter(platform) then Success(filename)
    else match LastSeparator(filename)
      case None => Success(filename)
      case Some(i) => Success(filename[i + 1..])
  }

  /**
   * Splitting a name that does not end in the delimiter: the directory part
   * (without a trailing delimiter), the separator and the file part put the
   * name back together, and the file part holds no separator. Without a
   * separator the directory part is empty and the file part is the name.
   */
  lemma SplitJoins(filename: string, platform: Platform)
    requires |filename| > 0 && filename[|filename| - 1] != Delimiter(platform)
    ensures GetPath(filename, false, platform).Success? && GetFilename(filename, platform).Success?
    ensures var dir := GetPath(filename, false, platform).value;
      var name := GetFilename(filename, platform).value;
      && (forall k | 0 <= k < |name| :: !IsSeparator(name[k]))
      && ((exists k | 0 <= k < |filename| :: IsSeparator(filename[k])) ==>
            |dir| < |filename| && dir + [filename[|dir|]] + name == filename
            && IsSeparator(filename[|dir|]))
      && ((forall k | 0 <= k < |filename| :: !IsSeparator(filename[k])) ==> dir == [] && name == filename)
  {
    match LastSeparator(filename)
    case None =>
    case Some(i) =>
      assert filename[..i] + [filename[i]] + filename[i + 1..] == filename;
      var name := filename[i + 1..];
      forall k | 0 <= k < |name| ensures !IsSeparator(name[k]) {
        assert name[k] == filename[i + 1 + k];
      }
  }

  /** A name ending in the delimiter is returned whole by both. */
  lemma SplitAtDelimiterEnd(filename: string, delimiterAtEnd: bool, platform: Platform)
    requires |filename| > 0 && filename[|filename| - 1] == Delimiter(platform)
    ensures GetPath(filename, delimiterAtEnd, platform) == Success(filename)
    ensures GetFilename(filename, platform) == Success(filename)
  {
  }

  /**
   * A name without any separator has an empty directory part, and GetPath
   * returns it bare: no delimiter is appended even when one is requested.
   */
  lemma GetPathWithoutSeparator(filename: string, delimiterAtEnd: bool, platform: Platform)
    requires |filename| > 0 && filename[|filename| - 1] != Delimiter(platform)
    requires forall k | 0 <= k < |filename| :: !IsSeparator(filename[k])
    ensures GetPath(filename, delimiterAtEnd, platform) == Success([])
  {
  }

  /** With the delimiter requested, GetPath keeps the separator position and writes the platform delimiter there. */
  lemma GetPathDelimiterAtEnd(filename: string, platform: Platform)
    requires |filename| > 0 && filename[|filename| - 1] != Delimiter(platform)
    requires LastSeparator(filename).Some?
    ensures GetPath(filename, true, platform).Success?
    ensures GetPath(filename, true, platform).value ==
      GetPath(filename, false, platform).value + [Delimiter(platform)]
  {
  }
}

=== FILE: persistence_key_value_storage.dfy ===
/**
 * The in-memory semantics of the persistent key-value store: every key maps
 * to the list of (timestamp, value) entries added under it, in order.
 * Timestamps are their tick counts.
 */
module PersistenceKeyValueStorage {
  import opened Results

  /** One stored value with the ticks of its timestamp. */
  datatype Entry = Entry(ticks: int, value: string)

  type Storage = map<string, seq<Entry>>

  /** The result of Add: its boolean return and the store afterwards. */
  datatype Added = Added(ok: bool, store: Storage)

  /**
   * Add with an explicit timestamp: creates the key if absent, clears its
   * list when `uniqueKey` is set, then appends the new entry.
   */
  function Add(st: Storage, key: string, value: string, uniqueKey: bool, ticks: int): (a: Added)
    ensures a.ok
    ensures a.store.Keys == st.Keys + {key}
    ensures uniqueKey ==> a.store[key] == [Entry(ticks, value)]
    ensures !uniqueKey && key in st ==> a.store[key] == st[key] + [Entry(ticks, value)]
    ensures !uniqueKey && key !in st ==> a.store[key] == [Entry(ticks, value)]
    ensures forall k | k in st && k != key :: a.store[k] == st[k]
  {
    var existing := if key in st then st[key] else [];
    var values := if uniqueKey then [] else existing;
    Added(true, st[key := values + [Entry(ticks, value)]])
  }


  /** Entry `i` has the greatest ticks, and every earlier entry strictly fewer. */
  predicate NewestAt(values: seq<Entry>, i: nat) {
    && i < |values|
    && (forall j | 0 <= j < |values| :: values[j].ticks <= values[i].ticks)
    && (forall j | 0 <= j < i :: values[j].ticks < values[i].ticks)
  }

  /** At most one position is the newest. */
  lemma NewestAtUnique(values: seq<Entry>, i: nat, j: nat)
    requires NewestAt(values, i) && NewestAt(values, j)
    ensures i == j
  {
    assert values[i].ticks == values[j].ticks;
  }

  /**
   * The position GetValue's scan settles on: the first entry is taken, and a
   * later one replaces it only with strictly more ticks.
   */
  function NewestIndex(values: seq<Entry>): (i: Option<nat>)
    ensures i.None? <==> |values| == 0
    ensures i.Some? ==> NewestAt(values, i.value)
    decreases |values|
  {
    if |values| == 0 then None
    else
      var last := |values| - 1;
      match NewestIndex(values[..last])
      case None => Some(last)
      case Some(best) =>
        if values[best].ticks < values[last].ticks then Some(last) else Some(best)
  }

  /** GetValue: the newest entry under a key, or none for an empty list. */
  function GetValue(st: Storage, key: string): (e: Option<Entry>)
    requires key in st
    ensures e.None? <==> |st[key]| == 0
    ensures e.Some? ==> exists i | 0 <= i < |st[key]| :: NewestAt(st[key], i) && st[key][i] == e.value
  {
    match NewestIndex(st[key])
    case None => None
    case Some(i) => Some(st[key][i])
  }

  /**
   * GetValues: the list under a key, oldest first; the dictionary indexer
   * throws for an absent key. It is empty exactly when GetValue finds no
   * value, and otherwise holds GetValue's entry.
   */
  function GetValues(st: Storage, key: string): (vs: seq<Entry>)
    requires key in st
    ensures vs == st[key]
    ensures GetValue(st, key).None? <==> vs == []
    ensures GetValue(st, key).Some? ==> GetValue(st, key).value in vs
  {
    st[key]
  }

  /**
   * GetKeys: the keys as a list, each once. The dictionary's enumeration
   * order is not modelled; any order is allowed.
   */
  method GetKeys(st: Storage) returns (keys: seq<string>)
    ensures |keys| == |st.Keys|
    ensures forall k :: k in keys <==> k in st
    ensures forall i, j | 0 <= i < j < |keys| :: keys[i] != keys[j]
  {
    keys := [];
    var rest := st.Keys;
    while rest != {}
      invariant rest !! set k | k in keys
      invariant forall k :: k in st <==> k in rest || k in keys
      invariant forall i, j | 0 <= i < j < |keys| :: keys[i] != keys[j]
      invariant |keys| + |rest| == |st.Keys|
      decreases |rest|
    {
      var k :| k in rest;
      keys := keys + [k];
      rest := rest - {k};
    }
  }

  /** After a unique Add, the key holds exactly the new entry, which is its newest value. */
  lemma AddUniqueThenGet(st: Storage, key: string, value: string, ticks: int)
    ensures var s := Add(st, key, value, true, ticks).store;
      && key in s
      && GetValues(s, key) == [Entry(ticks, value)]
      && GetValue(s, key) == Some(Entry(ticks, value))
  {
  }

  /** Appending an entry with strictly more ticks than every earlier one makes it the newest. */
  lemma AddNewerThenGet(st: Storage, key: string, value: string, ticks: int)
    requires key in st ==> forall j | 0 <= j < |st[key]| :: st[key][j].ticks < ticks
    ensures var s := Add(st, key, value, false, ticks).store;
      && key in s
      && GetValue(s, key) == Some(Entry(ticks, value))
  {
    var s := Add(st, key, value, false, ticks).store;
    var i :| 0 <= i < |s[key]| && NewestAt(s[key], i) && s[key][i] == GetValue(s, key).value;
    NewestAtUnique(s[key], i, |s[key]| - 1);
  }

  /**
   * Appending an entry no newer than the current newest leaves GetValue
   * unchanged: ties go to the earlier entry.
   */
  lemma AddOlderKeepsNewest(st: Storage, key: string, value: string, ticks: int)
    requires key in st && |st[key]| > 0
    requires exists j | 0 <= j < |st[key]| :: ticks <= st[key][j].ticks
    ensures var s := Add(st, key, value, false, ticks).store;
      GetValue(s, key) == GetValue(st, key)
  {
    var s := Add(st, key, value, false, ticks).store;
    assert s[key][..|s[key]| - 1] == st[key];
    var best := NewestIndex(st[key]).value;
    var j :| 0 <= j < |st[key]| && ticks <= st[key][j].ticks;
    assert ticks <= st[key][best].ticks;
    assert NewestIndex(s[key]) == Some(best);
  }
}

=== FILE: reader_corrections.dfy ===
/**
 * Where the reader's code departs from what its design evidently intends:
 * each departure is exhibited on a concrete input against the model of the
 * code as written, next to a corrected definition with the intended property
 * proved about it.
 */
module ReaderCorrections {
  import opened Results
  import opened ByteSource
  import opened LittleEndian
  import opened BufferedBinaryReader
  import opened ReaderProperties

  /**
   * Collects `need` bytes, refilling each time the buffer runs dry, and
   * throws end-of-stream when a refill delivers nothing.
   */
  function Gather(r: Reader, need: nat): (res: Result<Step<seq<byte>>, Error>)
    requires Valid(r) && r.stream.Some? && Live(r)
    ensures res.Success? <==> need <= |Unread(r)|
    ensures res.Failure? ==> res.error == EndOfStream
    ensures res.Success? ==>
      && res.value.value == Unread(r)[..need]
      && Valid(res.value.next) && Live(res.value.next) && SameSource(r, res.value.next)
      && Logical(res.value.next) == Logical(r) + need
    decreases need
  {
    if need == 0 then Success(Step([], r))
    else if r.cap <= r.pos then Failure(EndOfStream)
    else
      var len := Min(r.cap - r.pos, need);
      var head := TakeBuffered(r, len);
      match Gather(head.next, need - len)
      case Failure(e) => Failure(e)
      case Success(Step(rest, next)) =>
        GatherJoin(r, len, need, rest);
        Success(Step(head.value + rest, next))
  }

  /** The buffered head followed by the rest gathered after it is the next `need` unread bytes. */
  lemma GatherJoin(r: Reader, len: nat, need: nat, rest: seq<byte>)
    requires Valid(r) && r.stream.Some? && 0 < len <= r.cap - r.pos && len <= need <= |Unread(r)|
    requires rest == Unread(TakeBuffered(r, len).next)[..need - len]
    ensures TakeBuffered(r, len).value + rest == Unread(r)[..need]
  {
    var u := Unread(r);
    assert Unread(TakeBuffered(r, len).next) == u[len..];
    assert u[..len] + u[len..][..need - len] == u[..need];
  }

  /**
   * The corrected multi-byte decode: the same checks as the code, then as
   * many refills as the value needs. It decodes at every capacity, fails
   * rather than return a partial value, and never leaves the reader stalled.
   */
  function ReadExact(r: Reader, width: nat): (res: Result<Step<seq<byte>>, Error>)
    requires Valid(r) && 1 <= width <= ScratchSize
    ensures r.stream.None? ==> res == Failure(ObjectDisposed)
    ensures r.stream.Some? && r.cap <= r.pos ==> res == Failure(EndOfStream)
    ensures r.stream.Some? && r.pos < r.cap ==>
      && (res.Success? <==> width <= |Unread(r)|)
      && (res.Failure? ==> res.error == EndOfStream)
      && (res.Success? ==>
            && res.value.value == Unread(r)[..width]
            && Valid(res.value.next) && Live(res.value.next) && SameSource(r, res.value.next)
            && Logical(res.value.next) == Logical(r) + width)
  {
    match r.stream
    case None => Failure(ObjectDisposed)
    case Some(_) =>
      if r.cap <= r.pos then Failure(EndOfStream)
      else Gather(r, width)
  }

  /**
   * With the corrected decode, a value encoded at the head of the source
   * decodes to itself at every capacity from 1 up.
   */
  lemma ExactRoundTrip(v: nat, width: nat, rest: seq<byte>, bufferSize: int, canSeek: bool)
    requires 1 <= width <= ScratchSize && v < Pow256(width) && 0 < bufferSize
    ensures var r := Fresh(Stream(ToBytes(v, width) + rest, 0, true, canSeek, false), bufferSize);
      && ReadExact(r, width).Success?
      && FromBytes(ReadExact(r, width).value.value) == v
      && Live(ReadExact(r, width).value.next)
  {
    var r := Fresh(Stream(ToBytes(v, width) + rest, 0, true, canSeek, false), bufferSize);
    assert Unread(r)[..width] == ToBytes(v, width);
    FromBytesToBytes(v, width);
  }

  /**
   * As written, a decode over a non-empty buffer leaves the reader stalled
   * exactly when it crosses the refill with a tail as long as the capacity
   * and the stream holds more than the refill took; the corrected decode
   * never stalls.
   */
  lemma StallCondition(r: Reader, width: nat)
    requires Valid(r) && r.stream.Some? && r.pos < r.cap && 1 <= width <= ScratchSize
    requires DecodeFits(r, width) && width <= |Unread(r)|
    ensures ReadFixed(r, width).Success? && ReadExact(r, width).Success?
    ensures !Live(ReadFixed(r, width).value.next) <==>
      && r.cap - r.pos < width
      && width - (r.cap - r.pos) == r.bufferSize
      && r.bufferSize < r.stream.value.Available()
    ensures ReadFixed(r, width).value.value == ReadExact(r, width).value.value
    ensures Live(ReadExact(r, width).value.next)
  {
  }

  /**
   * As written, a value split across a refill that exactly fills the
   * one-byte buffer leaves the reader reporting EOF, and the next byte
   * read throws, although the stream still holds a byte. The reader is the
   * one a capacity of 1 builds over 01 02 03.
   */
  lemma BoundaryTailFixed(d: seq<byte>)
    requires d == [0x01, 0x02, 0x03]
    ensures var r := Reader(Some(Stream(d, 1, true, false, false)), [0x01], 0, 1, 1);
      var stalled := Reader(Some(Stream(d, 2, true, false, false)), [0x02], 1, 1, 1);
      && Valid(r) && DecodeFits(r, 2)
      && ReadFixed(r, 2) == Success(Step([0x01, 0x02], stalled))
      && EOF(stalled) && Unread(stalled) == [0x03]
      && NextByte(stalled) == Failure(EndOfStream)
  {
    var r := Reader(Some(Stream(d, 1, true, false, false)), [0x01], 0, 1, 1);
    var refilled := Reader(Some(Stream(d, 2, true, false, false)), [0x02], 0, 1, 1);
    var stalled := Reader(Some(Stream(d, 2, true, false, false)), [0x02], 1, 1, 1);
    StallHead(d);
    StallTail(d);
    CrossingTwoBytes(r, refilled, stalled, [0x01], [0x02]);
    var head: seq<byte>, tail: seq<byte> := [0x01], [0x02];
    assert head + tail == [0x01, 0x02];
  }

  /** A two-byte decode over one buffered byte is the head, the refill, then the tail. */
  lemma CrossingTwoBytes(r: Reader, refilled: Reader, stalled: Reader, head: seq<byte>, tail: seq<byte>)
    requires Valid(r) && r.stream.Some? && r.cap - r.pos == 1 && DecodeFits(r, 2)
    requires TakeBuffered(r, 1) == Step(head, refilled)
    requires Valid(refilled) && refilled.stream.Some? && refilled.pos == 0 && 1 <= refilled.cap
    requires TakeTail(refilled, 1) == Step(tail, stalled)
    ensures ReadFixed(r, 2) == Success(Step(head + tail, stalled))
  {
  }

  /** The buffered head of the stalling decode: the one byte, then a refill delivering 02. */
  lemma StallHead(d: seq<byte>)
    requires d == [0x01, 0x02, 0x03]
    ensures var r := Reader(Some(Stream(d, 1, true, false, false)), [0x01], 0, 1, 1);
      && Valid(r) && Unread(r) == d
      && TakeBuffered(r, 1) == Step([0x01], Reader(Some(Stream(d, 2, true, false, false)), [0x02], 0, 1, 1))
  {
    var r := Reader(Some(Stream(d, 1, true, false, false)), [0x01], 0, 1, 1);
    assert Valid(r) && Unread(r) == d;
  }

  /** The tail of the stalling decode: 02 is taken and `pos` meets `cap` with 03 unread. */
  lemma StallTail(d: seq<byte>)
    requires d == [0x01, 0x02, 0x03]
    ensures var refilled := Reader(Some(Stream(d, 2, true, false, false)), [0x02], 0, 1, 1);
      var stalled := Reader(Some(Stream(d, 2, true, false, false)), [0x02], 1, 1, 1);
      && Valid(refilled) && Valid(stalled)
      && TakeTail(refilled, 1) == Step([0x02], stalled)
      && Unread(stalled) == [0x03]
  {
    var refilled := Reader(Some(Stream(d, 2, true, false, false)), [0x02], 0, 1, 1);
    assert TakeTail(refilled, 1).value == [0x02];
  }

  /**
   * The stall of `BoundaryTailFixed` next to the corrected decode, which
   * refills and reads the byte that follows.
   */
  lemma BoundaryTailStalls(d: seq<byte>)
    requires d == [0x01, 0x02, 0x03]
    ensures var r := Fresh(Stream(d, 0, true, false, false), 1);
      && ReadFixed(r, 2).Success?
      && ReadFixed(r, 2).value.value == [0x01, 0x02]
      && EOF(ReadFixed(r, 2).value.next)
      && Unread(ReadFixed(r, 2).value.next) == [0x03]
      && NextByte(ReadFixed(r, 2).value.next) == Failure(EndOfStream)
      && ReadExact(r, 2).Success?
      && ReadExact(r, 2).value.value == [0x01, 0x02]
      && NextByte(ReadExact(r, 2).value.next).Success?
      && NextByte(ReadExact(r, 2).value.next).value.value == 0x03
  {
    BoundaryTailFixed(d);
    var r := Fresh(Stream(d, 0, true, false, false), 1);
    assert r == Reader(Some(Stream(d, 1, true, false, false)), [0x01], 0, 1, 1);
    ExactLeavesNext(r, 2);
  }

  /** After the corrected decode, the byte that follows the value is the next one read. */
  lemma ExactLeavesNext(r: Reader, width: nat)
    requires Valid(r) && r.stream.Some? && r.pos < r.cap && 1 <= width <= ScratchSize
    requires width < |Unread(r)|
    ensures ReadExact(r, width).Success?
    ensures ReadExact(r, width).value.value == Unread(r)[..width]
    ensures NextByte(ReadExact(r, width).value.next).Success?
    ensures NextByte(ReadExact(r, width).value.next).value.value == Unread(r)[width]
  {
    var next := ReadExact(r, width).value.next;
    assert Unread(next) == Unread(r)[width..];
  }

  /**
   * As written, a reader whose capacity is below half the width cannot take
   * the value in one refill: the code's block copy would throw. The
   * corrected decode succeeds.
   */
  lemma SmallCapacityFails(s: Stream, bufferSize: int, width: nat)
    requires s.Valid() && s.canRead && 0 < bufferSize && 2 * bufferSize < width <= ScratchSize
    requires width <= s.Available()
    ensures !DecodeFits(Fresh(s, bufferSize), width)
    ensures ReadExact(Fresh(s, bufferSize), width).Success?
  {
  }

  /**
   * In any state, once the tail a decode must take from the single refill
   * exceeds the capacity, the decode cannot fit: the code's block copy would
   * read past the refilled buffer. The corrected decode succeeds whenever
   * the source holds the value.
   */
  lemma TailBeyondCapacityFails(r: Reader, width: nat)
    requires Valid(r) && r.stream.Some? && r.pos < r.cap && width <= ScratchSize
    requires width - (r.cap - r.pos) > r.bufferSize
    ensures !DecodeFits(r, width)
    ensures ReadExact(r, width).Success? <==> width <= |Unread(r)|
  {
  }

  /** The corrected ReadInt24: the three bytes read as a two's-complement 24-bit value. */
  function ReadInt24Signed(r: Reader): (res: Result<Step<int>, Error>)
    requires Valid(r) && DecodeFits(r, 3)
    ensures Decoded(r, res, 3)
    ensures res.Success? ==> EncodesSigned(res.value.value, 3, Unread(r)[..3])
  {
    Signed(r, 3)
  }

  /** The three bytes FF FF FF: 0xFFFFFF unsigned, -1 in two's complement. */
  lemma AllOnes(d: seq<byte>, u: nat, v: int)
    requires d == [0xFF, 0xFF, 0xFF]
    requires EncodesUnsigned(u, 3, d) && EncodesSigned(v, 3, d)
    ensures u == 0xFF_FFFF && v == -1
  {
    assert FromBytes(d[2..]) == 0xFF;
    assert FromBytes(d[1..]) == 0xFFFF;
    assert FromBytes(d) == 0xFF_FFFF;
    FromBytesToBytes(u, 3);
    var w := FromSigned(v, 3);
    FromBytesToBytes(w, 3);
    assert w == 0xFF_FFFF;
    assert Pow256(3) == 0x100_0000 by {
      assert Pow256(1) == 0x100;
      assert Pow256(2) == 0x1_0000;
    }
  }

  /** As written, ReadInt24 returns 0xFFFFFF for the bytes FF FF FF; the corrected one returns -1. */
  lemma Int24NotSignExtended(d: seq<byte>)
    requires d == [0xFF, 0xFF, 0xFF]
    ensures var r := Reader(Some(Stream(d, 3, true, false, false)), d, 0, 3, 3);
      && Valid(r) && DecodeFits(r, 3)
      && ReadInt24(r).Success? && ReadInt24(r).value.value == 0xFF_FFFF
      && ReadInt24Signed(r).Success? && ReadInt24Signed(r).value.value == -1
  {
    var r := Reader(Some(Stream(d, 3, true, false, false)), d, 0, 3, 3);
    assert Valid(r) && Unread(r) == d;
    assert Unread(r)[..3] == d;
    AllOnes(d, ReadInt24(r).value.value, ReadInt24Signed(r).value.value);
  }

  /** The corrected Read: the same checks, with the bytes written from `index`. */
  method ReadAt(r: Reader, target: Option<seq<byte>>, index: int, count: int) returns (res: Result<Copied, Error>)
    requires Valid(r)
    ensures res.Failure? <==> ReadArgumentError(r, target, index, count).Some?
    ensures res.Failure? ==> res.error == ReadArgumentError(r, target, index, count).value
    ensures res.Success? ==> 0 <= index && Transferred(r, target.value, index, count, res.value)
  {
    var err := ReadArgumentError(r, target, index, count);
    if err.Some? {
      return Failure(err.value);
    }
    var c := CopyOut(r, target.value, index, count);
    return Success(c);
  }

  /** Writing one byte at `at` is an update of that one position. */
  lemma WrittenOne(out: seq<byte>, target: seq<byte>, at: nat, src: seq<byte>)
    requires |src| == 1 && at < |target| && WrittenAt(out, target, at, src, 1)
    ensures out == target[at := src[0]]
  {
  }

  /** The reader over the single byte AA that ReadIndexIgnored and ReadIndexHonoured read from. */
  function IndexSample(d: seq<byte>): (r: Reader)
    requires d == [0xAA]
    ensures Valid(r) && r.stream.Some? && r.pos < r.cap && Unread(r) == d
  {
    Reader(Some(Stream(d, 1, true, false, false)), d, 0, 1, 4)
  }

  /**
   * Reading one byte 0xAA into a four-byte destination at index 2: the
   * code's Read writes it at position 0.
   */
  method ReadIndexIgnored(d: seq<byte>) returns (written: seq<byte>)
    requires d == [0xAA]
    ensures written == [0xAA, 0x00, 0x00, 0x00]
  {
    var target: seq<byte> := [0x00, 0x00, 0x00, 0x00];
    var expected := target[0 := 0xAA];
    assert expected == [0xAA, 0x00, 0x00, 0x00];
    var a := Read(IndexSample(d), Some(target), 2, 1);
    WrittenOne(a.value.target, target, 0, d);
    written := a.value.target;
    assert written == expected;
  }

  /** The same read through the corrected ReadAt writes the byte at position 2. */
  method ReadIndexHonoured(d: seq<byte>) returns (written: seq<byte>)
    requires d == [0xAA]
    ensures written == [0x00, 0x00, 0xAA, 0x00]
  {
    var target: seq<byte> := [0x00, 0x00, 0x00, 0x00];
    var expected := target[2 := 0xAA];
    assert expected == [0x00, 0x00, 0xAA, 0x00];
    var b := ReadAt(IndexSample(d), Some(target), 2, 1);
    WrittenOne(b.value.target, target, 2, d);
    written := b.value.target;
    assert written == expected;
  }
}

=== FILE: reader_properties.dfy ===
/**
 * Properties that relate several reader operations: lifecycle, skip against
 * seek, and decoding a value that was encoded into the source.
 */
module ReaderProperties {
  import opened Results
  import opened ByteSource
  import opened LittleEndian
  import opened BufferedBinaryReader

  /** After disposal every checked operation throws, and EOF reports true. */
  lemma DisposeIsFinal(r: Reader, disposing: bool, offset: int, origin: SeekOrigin)
    ensures var d := Dispose(r, disposing).reader;
      && NextByte(d) == Failure(ObjectDisposed)
      && ReadInt32(d) == Failure(ObjectDisposed)
      && Seek(d, offset, origin) == Failure(ObjectDisposed)
      && (0 <= offset ==> Skip(d, offset) == Failure(ObjectDisposed))
      && ReleaseInnerStream(d) == Failure(ObjectDisposed)
      && StreamPosition(d) == Failure(NullReference)
      && !CanSeek(d) && EOF(d)
  {
  }

  /** A second close finds no source and closes nothing. */
  lemma DisposeClosesOnce(r: Reader)
    ensures var d := Dispose(r, true);
      Dispose(d.reader, true) == Disposal(d.reader, None)
  {
  }

  /**
   * On a seekable source, skipping and seeking relative to the current
   * position leave the same bytes ahead, and neither stalls.
   */
  lemma SkipMatchesSeek(r: Reader, offset: int)
    requires Valid(r) && r.stream.Some? && r.stream.value.canSeek && r.pos < r.cap
    requires 0 <= offset && Logical(r) + offset <= |r.stream.value.data|
    ensures Skip(r, offset).Success? && Seek(r, offset, Current).Success?
    ensures Unread(Skip(r, offset).value) == Unread(Seek(r, offset, Current).value.next)
    ensures Live(Skip(r, offset).value) && Live(Seek(r, offset, Current).value.next)
  {
  }

  /**
   * On a source that cannot seek, skipping leaves exactly the bytes after
   * the next `offset`, and skipping past the end throws end-of-stream.
   */
  lemma SkipWithoutSeek(r: Reader, offset: int)
    requires Valid(r) && r.stream.Some? && !r.stream.value.canSeek && r.pos < r.cap
    requires 0 <= offset
    ensures offset <= |Unread(r)| ==> Skip(r, offset).Success? && Unread(Skip(r, offset).value) == Unread(r)[offset..]
    ensures offset > |Unread(r)| ==> Skip(r, offset) == Failure(EndOfStream)
  {
  }

  /** A fresh reader over `s` with capacity `bufferSize`. */
  function Fresh(s: Stream, bufferSize: int): (r: Reader)
    requires s.Valid() && s.canRead && 0 < bufferSize
    ensures Valid(r) && Live(r) && r.stream.Some? && r.pos == 0 && Unread(r) == s.data[s.position..]
  {
    New(Some(s), bufferSize).value
  }

  /**
   * The code's refill-once decode fits on a fresh reader whenever the
   * capacity is at least half the width and the value is in the source.
   */
  lemma FreshDecodeFits(s: Stream, bufferSize: int, width: nat)
    requires s.Valid() && s.canRead && 0 < bufferSize && width <= 2 * bufferSize
    requires width <= s.Available()
    ensures DecodeFits(Fresh(s, bufferSize), width)
  {
  }

  /** Two patterns with equal encodings are equal. */
  lemma ToBytesInjective(u: nat, v: nat, width: nat)
    requires u < Pow256(width) && v < Pow256(width)
    requires ToBytes(u, width) == ToBytes(v, width)
    ensures u == v
  {
    FromBytesToBytes(u, width);
    FromBytesToBytes(v, width);
  }

  /**
   * Round trip: an unsigned value encoded little-endian at the head of the
   * source, followed by anything, decodes to itself whenever the capacity is
   * at least half the width, wherever the refill boundary falls.
   */
  lemma UnsignedRoundTrip(v: nat, width: nat, rest: seq<byte>, bufferSize: int, canSeek: bool)
    requires 1 <= width <= ScratchSize && v < Pow256(width)
    requires 0 < bufferSize && width <= 2 * bufferSize
    ensures var r := Fresh(Stream(ToBytes(v, width) + rest, 0, true, canSeek, false), bufferSize);
      && DecodeFits(r, width)
      && Unsigned(r, width).Success?
      && Unsigned(r, width).value.value == v
      && Logical(Unsigned(r, width).value.next) == width
  {
    var s := Stream(ToBytes(v, width) + rest, 0, true, canSeek, false);
    var r := Fresh(s, bufferSize);
    FreshDecodeFits(s, bufferSize, width);
    assert Unread(r)[..width] == ToBytes(v, width);
    ToBytesInjective(Unsigned(r, width).value.value, v, width);
  }

  /** The signed counterpart of `UnsignedRoundTrip`. */
  lemma SignedRoundTrip(v: int, width: nat, rest: seq<byte>, bufferSize: int, canSeek: bool)
    requires 1 <= width <= ScratchSize && -Half(width) <= v < Half(width)
    requires 0 < bufferSize && width <= 2 * bufferSize
    ensures FromSigned(v, width) < Pow256(width)
    ensures var r := Fresh(Stream(ToBytes(FromSigned(v, width), width) + rest, 0, true, canSeek, false), bufferSize);
      && DecodeFits(r, width)
      && Signed(r, width).Success?
      && Signed(r, width).value.value == v
  {
    FromSignedRoundTrip(v, width);
    var u := FromSigned(v, width);
    var s := Stream(ToBytes(u, width) + rest, 0, true, canSeek, false);
    var r := Fresh(s, bufferSize);
    FreshDecodeFits(s, bufferSize, width);
    assert Unread(r)[..width] == ToBytes(u, width);
    var w := Signed(r, width).value.value;
    ToBytesInjective(FromSigned(w, width), u, width);
    FromSignedRoundTrip(w, width);
  }

  /** ReadInt24 and ReadUInt24 return the same value and state for the same bytes. */
  lemma Int24MatchesUInt24(r: Reader)
    requires Valid(r) && DecodeFits(r, 3)
    ensures ReadInt24(r).Success? <==> ReadUInt24(r).Success?
    ensures ReadInt24(r).Success? ==>
      && ReadInt24(r).value.value == ReadUInt24(r).value.value
      && ReadInt24(r).value.next == ReadUInt24(r).value.next
  {
  }

  /** The ten-byte sample 01 00 00 00 02 00 FF 00 00 00 traced by the Scenario lemmas. */
  predicate IsSample(d: seq<byte>) {
    d == [0x01, 0x00, 0x00, 0x00, 0x02, 0x00, 0xFF, 0x00, 0x00, 0x00]
  }

  /** A reader over the ten-byte sample with capacity 3, with the stream cursor at `position`. */
  function At(d: seq<byte>, position: nat, buffer: seq<byte>, pos: int): Reader {
    Reader(Some(Stream(d, position, true, true, false)), buffer, pos, |buffer|, 3)
  }

  lemma ScenarioFill(d: seq<byte>)
    requires IsSample(d)
    ensures Fresh(Stream(d, 0, true, true, false), 3) == At(d, 3, [0x01, 0x00, 0x00], 0)
  {
  }

  lemma ScenarioInt32(d: seq<byte>)
    requires IsSample(d)
    ensures DecodeFits(At(d, 3, [0x01, 0x00, 0x00], 0), 4)
    ensures ReadInt32(At(d, 3, [0x01, 0x00, 0x00], 0)) == Success(Step(1, At(d, 6, [0x00, 0x02, 0x00], 1)))
  {
    var r := At(d, 3, [0x01, 0x00, 0x00], 0);
    assert TakeBuffered(r, 3).next == At(d, 6, [0x00, 0x02, 0x00], 0);
    ToBytesInjective(FromSigned(ReadInt32(r).value.value, 4), 1, 4);
  }

  lemma ScenarioInt16(d: seq<byte>)
    requires IsSample(d)
    ensures DecodeFits(At(d, 6, [0x00, 0x02, 0x00], 1), 2)
    ensures ReadInt16(At(d, 6, [0x00, 0x02, 0x00], 1)) == Success(Step(2, At(d, 9, [0xFF, 0x00, 0x00], 0)))
  {
    var r := At(d, 6, [0x00, 0x02, 0x00], 1);
    assert TakeBuffered(r, 2).next == At(d, 9, [0xFF, 0x00, 0x00], 0);
    ToBytesInjective(FromSigned(ReadInt16(r).value.value, 2), 2, 2);
  }

  lemma ScenarioByte(d: seq<byte>)
    requires IsSample(d)
    ensures ReadByte(At(d, 9, [0xFF, 0x00, 0x00], 0)) == Success(Step(0xFF, At(d, 9, [0xFF, 0x00, 0x00], 1)))
  {
  }

  lemma ScenarioInt24(d: seq<byte>)
    requires IsSample(d)
    ensures DecodeFits(At(d, 9, [0xFF, 0x00, 0x00], 1), 3)
    ensures ReadInt24(At(d, 9, [0xFF, 0x00, 0x00], 1)) == Success(Step(0, At(d, 10, [0x00], 1)))
    ensures EOF(At(d, 10, [0x00], 1))
  {
    var r := At(d, 9, [0xFF, 0x00, 0x00], 1);
    assert TakeBuffered(r, 2).next == At(d, 10, [0x00], 0);
    ToBytesInjective(ReadInt24(r).value.value, 0, 3);
  }
}

=== FILE: results.dfy ===
/** Failure-carrying wrappers shared by every component of the model. */
module Results {

  /** A value that may be absent; stands for a nullable reference. */
  datatype Option<+T> = None | Some(value: T)

  /** Either the value an operation returns or the exception it throws. */
  datatype Result<+T, +E> = Success(value: T) | Failure(error: E) {
    predicate IsFailure() {
      Failure?
    }

    function PropagateFailure<U>(): Result<U, E>
      requires Failure?
    {
      Failure(error)
    }

    function Extract(): T
      requires Success?
    {
      value
    }
  }

  function Min(a: int, b: int): int {
    if a < b then a else b
  }
}
